=== FILE: README.md ===
# statsd-go aggregation core, modelled in Dafny

This project models the aggregation engine of the statsd daemon written in Go
(`main.go`). It covers three parts:

- **The packet decoder.** This is `handleMessage`. It strips every character
  outside `[a-zA-Z0-9\-_.:|@]`. It then finds, leftmost first and without
  overlap, every match of `name:value|type(|@rate)?` and turns each match
  into a `Packet`. An `ms` value that `ParseFloat` rejects becomes `"0"`, and
  a rate that is absent or unparsable becomes `1`.
- **The apply branch of `monitor`.**
  - An `ms` packet appends a parsed sample to its timer.
  - A `g` packet adds to its gauge (`+`), subtracts from it (`-`) or
    replaces it.
  - Any other packet adds `int(value * (1/rate))` to its counter.
  - Each bucket is created at zero (or with no samples) the first time it is
    seen.
- **The reduction of `submit`, without its I/O.**
  - Every counter is reported with its rate and its count, then set back
    to 0.
  - Every gauge is reported with its value.
  - Every timer is reported with mean, upper, upper_P, lower and count, or
    with five zeros when it has no samples, and is then emptied.
  - A closing `statsd.numStats` point counts the buckets. Every point
    carries `int32(time.Now().Unix())`.

State and values:

- `Decoder.Packet` is the `Packet` struct of `main.go` lines 22-27: bucket,
  value text, modifier and sampling rate.
- `Aggregates.Aggregates` holds the three maps `counters`, `gauges` and
  `timers` of lines 46-49 as values. `Store.AggregateStore` holds the same
  maps as fields that its methods update.
- `Reduction.DataPoint` is one report line of `submit`: the name, the value
  and the stamp.
- `Reduction.Config` holds the flags of lines 34-39 that `submit` reads: the
  prefixes, the flush interval and the percentile threshold.

Modules:

- `Numbers`: the Go semantics the core relies on.
  - `strconv.Atoi`, including its clamping on overflow.
  - `ParseFloat` on the plain decimals the packet pattern can deliver.
  - 64-bit and 32-bit wrap-around.
  - `int(f)` truncation and truncating `/`.
  - `%d` of a natural number.
- `Decoder`: sanitising, the scanner, and `Decode`.
- `Aggregates`: `Step`, the effect of one packet on the three maps, as a
  function.
- `Timers`:
  - the in-place insertion sort standing in for `sort.Float64s`;
  - the summing loop;
  - `Summarize`, proved equal to the order-free specification `StatsOf`.
- `Reduction`: `Snapshot` and `Reset`, the points a flush reports and the
  maps it leaves, as functions of the maps and an iteration order.
- `Store`: the class `AggregateStore`.
  - It holds the three maps as fields.
  - `Apply` and `Receive` are proved against `Step`.
  - `Flush` runs the three loops of `submit` and is proved against
    `Snapshot` and `Reset`.

Behaviours of `main.go` that the model reproduces and proves:

- **The percentile is never applied.** `((100 - P) / 100) * count` is 0 for
  every `0 < P < 200` in Go's integer division. So the "threshold mean" is
  the mean of all samples, and `upper_P` is the maximum (`ThresholdIndexZero`,
  `StatsBounds`).
- **A `+` gauge never adds.** The sanitiser removes `+`, so `name:+5|g`
  *sets* the gauge to 5. The `+` branch of the gauge update is dead for
  decoded packets (`DecodeDropsPlus`, `DecodedGaugeNeverAdds`,
  `PlusGaugeReplaces`).
- **Separators vanish before matching.** Digits or dots that begin the next
  metric's name are taken into a preceding rate (`DecodeRateAbsorbs`).
- **The counter rate is `c / (flushInterval * 1e6)`.** The divisor is the
  interval in nanoseconds over 1e3.

Three more behaviours of `main.go` that the model keeps:

- **Counters are never dropped.** Once seen, a counter is reported at every
  flush, with 0 after a quiet interval (`IdleFlush`). It is not omitted.
- **Counters are integers.** Each packet's scaled value is truncated to an
  int before it is added. The total is not a float sum.
- **Signs and rates are loose.**
  - A value can carry a `-` sign only, since the `+` is stripped.
  - A rate is any `[0-9.]+` text. Nothing restricts it to (0, 1].

## Model

| member | source | states |
|---|---|---|
| Numbers.Atoi | main.go:77-83 | Atoi's result always fits in an int64 |
| Numbers.AtoiDigits | main.go:83 | Bare or signed digit strings give their value up to the int64 bounds; beyond them they are clamped to MaxInt64 or MinInt64 |
| Numbers.AtoiNonDigit | main.go:83 | Unsigned text with a non-digit after a prefix that does not overflow (such as "1.5") gives 0 |
| Numbers.WrapInt64 | main.go:78 | 64-bit `+=` wraps: the result is an int64, congruent modulo 2^64 to the exact sum, and equal to it when no overflow happens |
| Numbers.WrapInt32 | main.go:171 | `int32(...)` of the Unix time: an int32 congruent modulo 2^32, unchanged when it fits |
| Numbers.TruncTowardZero | main.go:92 | `int(f)` drops the fraction toward zero for positive and negative values alike, and is odd |
| Numbers.GoDiv | main.go:198 | Go's integer `/` truncates: the remainder has the dividend's sign and is smaller than the divisor |
| Numbers.NatToStringDigits | main.go:215-216 | `%d` of the threshold: a non-empty digit string, without a leading zero, whose value is the number |
| Numbers.ParseDecimalAccepts | main.go:69 | ParseFloat succeeds exactly on plain decimals (optional sign, digits, at most one dot, at least one digit); unsigned ones are not negative; any other text is a syntax error whose ignored result is 0 |
| Numbers.ParseFloat32Accepts | main.go:257 | ParseFloat(s, 32) succeeds exactly when s is a plain decimal whose magnitude is below the float32 overflow bound 2^128 - 2^103, and then returns the decimal's value; a digit string gives its value, or fails when it is at least that bound |
| Numbers.ParseDecimalDigits | main.go:91 | A digit string parses to the number it spells |
| Numbers.ParseDecimalFraction | main.go:69 | "w.f" parses to the value of w plus the value of f shifted right by the number of digits of f |
| Numbers.ShiftIsDivision | main.go:69 | Shifting a value right by k digits divides it by 10^k |
| Numbers.NegatedDecimal | main.go:69 | A leading `-` negates the parsed value and fails exactly when the unsigned text fails |
| Numbers.ParseFloat32 | main.go:257-263 | `ParseFloat(s, 32)` succeeding, at lines 257 and 263; see ParseFloat32Accepts |
| Numbers.ParseDecimal | main.go:69 | ParseFloat on plain decimals; see ParseDecimalAccepts, ParseDecimalDigits, ParseDecimalFraction and NegatedDecimal for what it accepts and returns |
| Numbers.ParseFloatOrZero | main.go:69-91 | `floatValue, _ := ParseFloat(...)` at lines 69 and 91: the parsed value, or 0 on a syntax error; the ±Inf that comes with a range error is not modelled; see ParseDecimalAccepts and ParseFloat32Accepts |
| Numbers.Trunc | main.go:92 | `int(f)` of Go; see TruncTowardZero for the truncation toward zero |
| Numbers.ScanUint | main.go:77-83 | The digit scan inside Atoi: a parsed result never exceeds MaxUint64; see AtoiDigits and AtoiNonDigit |
| Decoder.Sanitize | main.go:251-253 | The sanitised text holds only allowed characters and is no longer than the input |
| Decoder.SanitizeAppend | main.go:253 | Sanitising distributes over concatenation |
| Decoder.SanitizeKeepsExactly | main.go:251-253 | Each allowed character is kept as often as it occurs; no other character survives |
| Decoder.SanitizeAllowed | main.go:253 | Text made of allowed characters is unchanged |
| Decoder.SanitizeIdempotent | main.go:253 | Sanitising twice equals sanitising once |
| Decoder.SanitizeDropsOne | main.go:253 | A disallowed character inserted anywhere into allowed text is removed again |
| Decoder.SanitizeDropsAll | main.go:253 | Text of disallowed characters sanitises to nothing |
| Decoder.RunEndSpan | main.go:252 | A greedy `+` run covers only characters of its class and stops at the first character outside it |
| Decoder.RunEndIs | main.go:252 | A run delimited by a character outside the class is the run the scanner finds |
| Decoder.ModifierAtSound | main.go:252 | The `(c\|ms\|g)` alternative found is the text at that position |
| Decoder.RateAtSound | main.go:252 | The optional `\|@rate` group holds `[0-9.]+` text and covers exactly `\|@` plus the rate |
| Decoder.MatchPrefixSound | main.go:252 | A match's groups obey the pattern's classes, and the text it covers is exactly their encoding |
| Decoder.MatchEncoded | main.go:252 | Round trip: the encoding of well-formed groups, followed by text that does not extend it, matches back to exactly those groups and that length |
| Decoder.MatchNeedsBar | main.go:252 | Every match contains a `\|` |
| Decoder.MatchesSkip | main.go:254 | Leftmost first: text where no match starts is skipped without hiding a later match |
| Decoder.FirstMatch | main.go:254 | The first match found is the leftmost one, and the search resumes right after it |
| Decoder.NoMatch | main.go:254 | Text where no match starts yields no matches |
| Decoder.MatchPrefix | main.go:252 | The pattern anchored at the start of the text: a match covers at least one character and no more than the text; see MatchPrefixSound, MatchEncoded and MatchNeedsBar |
| Decoder.Matches | main.go:254 | FindAllStringSubmatch: leftmost first, without overlap; see FirstMatch, MatchesSkip, NoMatch and MatchesOfEncoded |
| Decoder.MatchesWellFormed | main.go:254 | Every match found has groups of the pattern's classes |
| Decoder.MatchesOfEncoded | main.go:254 | An encoded match followed by non-extending text yields that match, then the matches of the text |
| Decoder.ToPacketDefaults | main.go:255-271 | The bucket and modifier are the groups'. An ms value that is not a plain decimal, or whose magnitude is at least the float32 overflow bound, becomes "0". A value ParseFloat(_, 32) accepts, or any value of another type, is passed unchanged. The rate is 1 when the suffix is absent, not a plain decimal or at least the overflow bound in magnitude, and the parsed suffix when ParseFloat(_, 32) accepts it |
| Decoder.ToPacket | main.go:255-271 | The defaults applied to one match; see ToPacketDefaults and ToPacketShape |
| Decoder.ToPacketShape | main.go:255-271 | A packet built from a match has a name bucket, value text, one of the three modifiers and a rate that is not negative |
| Decoder.Decode | main.go:248-281 | Every decoded packet has that shape, and its value is never empty and never starts with `+` |
| Decoder.DecodeEncode | main.go:248-281 | Round trip: one well-formed metric decodes to exactly its packet |
| Decoder.DecodeTwo | main.go:248-281 | Two metrics separated by dropped characters decode to two independent packets, unless the first ends in a rate and the second's name begins with a digit or dot |
| Decoder.MatchesTwo | main.go:252-254 | Two adjacent encodings yield both matches, in order, under the same condition |
| Decoder.SanitizeJoin | main.go:253 | The separator between two encodings is removed and the encodings are kept |
| Decoder.DecodeSpaceSeparated | main.go:253-254 | `"a:1\|c b:2\|c"` decodes to two counter packets with rate 1 |
| Decoder.DecodeDropsPlus | main.go:251-253 | `name:+v\|g` decodes to a gauge packet with the unsigned value v |
| Decoder.DecodeRateAbsorbs | main.go:252-253 | Leading digits or dots of the next name are taken into a preceding rate and lost from that name |
| Decoder.DecodeWithoutBar | main.go:252 | A datagram without `\|`, such as a metric cut short, yields no packets |
| Aggregates.GaugeAfterDigits | main.go:76-85 | For a digit string n of value v (v read as MaxInt64 beyond the int64 range): "n" sets the gauge to v, "+n" adds v and "-n" subtracts v, both with 64-bit wrap-around |
| Aggregates.GaugeAfter | main.go:76-85 | The gauge update; see GaugeAfterDigits, GaugeReplaces and GaugeAdjusts |
| Aggregates.Step | main.go:61-93 | One packet applied to the maps; see StepTouchesOneBucket, StepTimer, StepCounterUnsampled, StepCounterSampled and StepValid |
| Aggregates.CounterDelta | main.go:92 | `int(float32(v) * (1 / s))` of the parsed value v; see CounterDeltaScaled, StepCounterUnsampled and StepCounterSampled |
| Aggregates.CounterDeltaScaled | main.go:92 | At a rate of 1/k an integer n is scaled to exactly k * n and truncation keeps it |
| Aggregates.StepCounterBy | main.go:86-92 | A counter packet whose delta is d adds d to the counter, which starts at 0, when no overflow happens |
| Aggregates.ApplyAll | main.go:57-61 | The packets of the channel applied in order; see ApplyAllValid and ApplyAllGrows |
| Aggregates.StepTouchesOneBucket | main.go:61-93 | A packet changes one bucket of one map, chosen by its modifier. That map gains the bucket if new, every other bucket keeps its value, and the other maps do not change |
| Aggregates.StepTimer | main.go:62-70 | An ms packet appends its parsed value after the bucket's samples, starting from none |
| Aggregates.StepCounterUnsampled | main.go:86-92 | At rate 1 an integer value n adds exactly n to the counter, which starts at 0 |
| Aggregates.StepCounterSampled | main.go:91-92 | At a rate of 1/k (0.5, 0.25, 0.1, …) an integer value n adds k * n: sampled counts are scaled back up |
| Aggregates.StepValid | main.go:61-93 | Counters and gauges stay within 64 bits |
| Aggregates.GaugeReplaces | main.go:82-84 | An unsigned gauge value replaces the gauge whatever it was; a decimal like "1.5" sets it to 0 |
| Aggregates.GaugeAdjusts | main.go:76-81 | `+n` then `-m` from g leaves g + n - m when nothing overflows |
| Aggregates.ApplyAllValid | main.go:57-61 | A stream of packets keeps every counter and gauge within 64 bits |
| Aggregates.ApplyAllGrows | main.go:57-61 | A stream of packets never removes a bucket |
| Aggregates.DecodedApplicable | main.go:263-271 | Every decoded packet can be applied, except a counter whose rate is 0 |
| Aggregates.DecodedGaugeNeverAdds | main.go:76-85 | A decoded gauge packet either subtracts Atoi of the text after its `-`, wrapped to int64, or replaces the gauge with Atoi of its value; it never adds |
| Aggregates.PlusGaugeReplaces | main.go:76-78 | `name:+n\|g` sets the gauge to n instead of adding n |
| Timers.MinIsLeast | main.go:191 | The lower value is a sample, and no sample is less |
| Timers.MaxIsGreatest | main.go:192 | The upper value is a sample, and no sample is greater |
| Timers.SumPermutation | main.go:190 | Reordering the samples does not change their sum |
| Timers.SortInPlace | main.go:190 | sort.Float64s: the array ends sorted ascending and holds the same samples (a permutation) |
| Timers.InsertAt | main.go:190 | One insertion step extends the sorted prefix by one, keeps the samples and leaves the rest of the array alone |
| Timers.ThresholdIndex | main.go:198 | `((100 - P) / 100) * count` in Go's integer arithmetic; see ThresholdIndexZero |
| Timers.StatsOf | main.go:188-207 | The five statistics of a timer's samples, defined without sorting; see StatsBounds, and Summarize, which is proved equal to it |
| Timers.ThresholdIndexZero | main.go:197-199 | The trim index is 0 for every threshold 0 < P < 200, so all samples are kept |
| Timers.RunningMeanIsAverage | main.go:202-206 | The summing loop's running mean is the sum of all samples over their count |
| Timers.StatsBounds | main.go:188-207 | lower and upper are samples bracketing all the samples, the mean lies between them, upper_P equals upper, and count is the number of samples |
| Timers.SortedEnds | main.go:190-192 | After sorting, the first and last elements are the least and greatest samples |
| Timers.SumFirst | main.go:202-205 | The summing loop computes the sum of the first n sorted samples |
| Timers.Summarize | main.go:189-207 | Sort in place, read off the ends, and average the samples below the trim index; the result equals the order-free StatsOf of the samples |
| Reduction.Snapshot | main.go:170-238 | The points of one flush; see SnapshotShape, SnapshotStamps, SnapshotMembers, SnapshotReportsEvery and SnapshotOrderIrrelevant |
| Reduction.CounterRate | main.go:174 | The reported rate of a counter; see CounterReported |
| Reduction.CounterPointsCount | main.go:173-181 | Two points per counter |
| Reduction.TimerPointsCount | main.go:188-237 | Five points per timer |
| Reduction.Reset | main.go:179 | After a flush no bucket is removed, gauges are unchanged, every counter is 0 and every timer is empty (lines 208-209 as well) |
| Reduction.OrderExists | main.go:173 | Every state has an iteration order, so a flush is always possible |
| Reduction.SnapshotShape | main.go:170-238 | A flush reports 2 points per counter, 1 per gauge and 5 per timer, then numStats, which comes last and counts every bucket once |
| Reduction.SnapshotStamps | main.go:171 | Every point carries the flush time cut to int32 |
| Reduction.CounterPointsAt | main.go:173-178 | The i-th counter visited owns points 2i and 2i+1: its rate and its count |
| Reduction.GaugePointsAt | main.go:182-185 | The i-th gauge visited owns point i: its value |
| Reduction.TimerPointsAt | main.go:188-235 | The i-th timer visited owns points 5i to 5i+4: the statistics of its samples |
| Reduction.CounterPointsMembers | main.go:173-178 | A point is in the counters section exactly when it is a point of some counter visited |
| Reduction.GaugePointsMembers | main.go:182-185 | A point is in the gauges section exactly when it is the point of some gauge visited |
| Reduction.TimerPointsMembers | main.go:188-235 | A point is in the timers section exactly when it is a point of some timer visited |
| Reduction.CounterReported | main.go:174-177 | Each counter is reported with its rate c/(interval*1e6) and its count |
| Reduction.GaugeReported | main.go:183-184 | Each gauge is reported with its value |
| Reduction.TimerReported | main.go:211-234 | Each timer is reported with the five statistics of its samples |
| Reduction.SnapshotReportsEvery | main.go:173-237 | Every bucket of every map is reported |
| Reduction.SnapshotMembers | main.go:170-238 | A point is reported exactly when one of the three sections holds it or it is the numStats point |
| Reduction.SnapshotOrderIrrelevant | main.go:173-188 | Which points are reported does not depend on the map iteration order, only their sequence does |
| Reduction.OrderSizes | main.go:173-188 | An iteration order visits each map's buckets, as many as the map has |
| Reduction.EnumeratesCard | main.go:173-188 | A list naming each member of a set once is as long as the set |
| Reduction.ResetKeepsBuckets | main.go:179 | A flush keeps every bucket, so the same iteration order serves the next flush. Resetting twice equals resetting once, and 64-bit validity is kept (lines 208-209 as well) |
| Reduction.IdleFlush | main.go:222-234 | A flush with no traffic since the last one reports counters as 0 with rate 0, gauges at their value, and timers as five zeros |
| Store.AggregateStore.constructor | main.go:44-49 | The three maps start empty |
| Store.AggregateStore.Apply | main.go:61-93 | Receiving a packet changes the maps exactly as Step does |
| Store.AggregateStore.ApplyTimer | main.go:62-70 | The timer branch: create the bucket if new, append the parsed sample |
| Store.AggregateStore.ApplyGauge | main.go:71-85 | The gauge branch: create at 0 if new, then add, subtract or replace |
| Store.AggregateStore.ApplyCounter | main.go:86-92 | The counter branch: create at 0 if new, then add the truncated scaled value with 64-bit wrap-around |
| Store.AggregateStore.Receive | main.go:57-61 | Draining the channel applies the packets in order: the state is ApplyAll of the packets |
| Store.AggregateStore.Flush | main.go:170-238 | submit returns exactly Snapshot of the old maps and leaves exactly Reset of them |
| Store.AggregateStore.FlushCounters | main.go:173-181 | The counters loop reports CounterPoints in visiting order, counts each counter once, sets every counter to 0 and touches nothing else |
| Store.AggregateStore.FlushGauges | main.go:182-187 | The gauges loop reports GaugePoints in visiting order and counts each gauge once |
| Store.AggregateStore.FlushTimers | main.go:188-237 | The timers loop reports TimerPoints in visiting order, counts each timer once, empties every timer and touches nothing else |
| Store.AggregateStore.FlushTimer | main.go:189-235 | One timer reports the five fields of StatsOf its samples (zeros when there are none) and is emptied |

## Left out

- The UDP listener, the Graphite TCP connection, Ganglia submission, the
  packet channel, goroutines, the ticker, command-line flags and logging are
  not modelled. `Flush` returns the data points instead of writing them.
- `time.Now()` becomes the `unix` parameter of `Flush`.
- Go's map iteration order is unspecified. `Flush` takes it as a `KeyOrder`
  parameter that lists each map's keys once.
  `Reduction.SnapshotOrderIrrelevant` shows that the set of reported points
  does not depend on it.
- Floating point is modelled by exact reals, with no float32 or float64
  rounding, infinities or NaN. The one rounding effect kept is the float32
  overflow bound of `ParseFloat(_, 32)`.
  - The timer sample goes through `ParseFloat(_, 64)`, and its float64
    overflow to ±Inf is not modelled.
  - Likewise the counter value, `float32(floatValue)` and `1 / s.Sampling`.
- `ParseFloat` is modelled on plain decimals only: an optional sign, digits,
  at most one dot. The decoder's pattern only lets such text through.
  Exponents, hexadecimal floats, underscores, "Inf" and "NaN" are not
  modelled, and neither is the value `ParseFloat` returns together with a
  range error.
- The text formatting of the report lines is not modelled. A data point
  holds the name, the value and the stamp, not the line
  `fmt.Fprintf` writes. In particular, the counter rate is printed with `%d`
  although it is a float, and that output text is not modelled.
- Aggregates.Applicable: a counter packet with rate 0 is excluded. Go
  computes `1/0 = +Inf`, and `int(+Inf)` is implementation-defined. A
  negative rate cannot be decoded.
- Reduction.ValidConfig: the flush interval must be positive, because the
  ticker needs it and the rate divides by it. The percentile threshold must
  lie in 1..199, the range in which the trim index is proved to be 0.
  Outside that range, a timer with two or more samples goes wrong at
  `main.go` lines 196-206, and the model does not cover it:
  - a threshold in -99..0 makes `numInThreshold` 0, so the mean is
    0/0, which is NaN;
  - a threshold of 200 or more slices `t[0:2*count]` or further, which
    reads past `len(t)` or panics;
  - a threshold of -100 or less gives a negative slice bound, which panics.
- Aggregates.StepCounterSampled: this is stated for rates 1/k, where an
  integer value n adds exactly k * n. No law is proved for rates whose
  inverse is not an integer, because there the truncation of each scaled
  value makes the result depend on the digits.
- Aggregates.CounterDelta: when `float32(v) * (1 / s)` lies outside the
  int64 range, Go's `int(...)` conversion is implementation-defined (on
  amd64 it gives MinInt64, on arm64 it saturates). The model truncates the
  exact value and lets the 64-bit `+=` wrap it instead.
- Store.AggregateStore.ApplyCounter: the same out-of-range case as
  Aggregates.CounterDelta is modelled by truncation and 64-bit wrap-around.
- Numbers.Atoi: only the case of a 64-bit `int` is modelled.

=== FILE: aggregates.dfy ===
/** What one packet does to the three aggregate maps of monitor: a timer
    sample is appended, a gauge is adjusted or replaced, and anything else is
    counted, scaled up by its sampling rate. This is the specification the
    store's Apply method is proved against. */
module Aggregates {
  import opened Numbers
  import opened Decoder

  /** The counters, gauges and timers maps, keyed by bucket. */
  datatype Aggregates = Aggregates(counters: map<string, int>, gauges: map<string, int>, timers: map<string, seq<real>>)

  /** Go ints are 64 bits wide: every counter and gauge fits. */
  predicate Valid(a: Aggregates)
  {
    && (forall k :: k in a.counters ==> MinInt64 <= a.counters[k] <= MaxInt64)
    && (forall k :: k in a.gauges ==> MinInt64 <= a.gauges[k] <= MaxInt64)
  }

  /** A bucket's integer value, 0 while the bucket is absent. */
  function IntOf(m: map<string, int>, k: string): int
  {
    if k in m then m[k] else 0
  }

  /** A timer's samples, none while the bucket is absent. */
  function SamplesOf(m: map<string, seq<real>>, k: string): seq<real>
  {
    if k in m then m[k] else []
  }

  /** The new value of a gauge that stood at cur: a leading '+' adds the
      rest of the value, a leading '-' subtracts it, and anything else
      replaces the gauge; Atoi turns unparsable text into 0. */
  function GaugeAfter(cur: int, value: string): (g: int)
    ensures MinInt64 <= g <= MaxInt64
  {
    if |value| > 0 && value[0] == '+' then WrapInt64(cur + Atoi(value[1..]))
    else if |value| > 0 && value[0] == '-' then WrapInt64(cur - Atoi(value[1..]))
    else Atoi(value)
  }

  /** What a counter packet adds: its parsed value x scaled by 1/sampling,
      truncated toward zero as Go's int conversion does. */
  function CounterDelta(x: real, sampling: real): (d: int)
    requires sampling > 0.0
  {
    Trunc(x * (1.0 / sampling))
  }

  /** The modifiers that do not go to the counters need no sampling rate. */
  predicate Applicable(p: Packet)
  {
    p.modifier == "ms" || p.modifier == "g" || p.sampling > 0.0
  }

  /** One packet applied to the maps. */
  function Step(a: Aggregates, p: Packet): (b: Aggregates)
    requires Applicable(p)
  {
    if p.modifier == "ms" then
      a.(timers := a.timers[p.bucket := SamplesOf(a.timers, p.bucket) + [ParseFloatOrZero(p.value)]])
    else if p.modifier == "g" then
      a.(gauges := a.gauges[p.bucket := GaugeAfter(IntOf(a.gauges, p.bucket), p.value)])
    else
      a.(counters := a.counters[p.bucket := WrapInt64(IntOf(a.counters, p.bucket) + CounterDelta(ParseFloatOrZero(p.value), p.sampling))])
  }

  /** A packet touches one bucket of one map: that map gains the bucket if
      it lacked it, every other bucket keeps its value, and the other two
      maps do not change. */
  lemma StepTouchesOneBucket(a: Aggregates, p: Packet)
    requires Applicable(p)
    ensures var b := Step(a, p);
            && (p.modifier == "ms" ==>
                  b.counters == a.counters && b.gauges == a.gauges && b.timers.Keys == a.timers.Keys + {p.bucket})
            && (p.modifier == "g" ==>
                  b.counters == a.counters && b.timers == a.timers && b.gauges.Keys == a.gauges.Keys + {p.bucket})
            && (p.modifier != "ms" && p.modifier != "g" ==>
                  b.gauges == a.gauges && b.timers == a.timers && b.counters.Keys == a.counters.Keys + {p.bucket})
            && (forall k :: k != p.bucket && k in a.counters ==> k in b.counters && b.counters[k] == a.counters[k])
            && (forall k :: k != p.bucket && k in a.gauges ==> k in b.gauges && b.gauges[k] == a.gauges[k])
            && (forall k :: k != p.bucket && k in a.timers ==> k in b.timers && b.timers[k] == a.timers[k])
  {
  }

  /** Timer packets append their parsed value at the end of the bucket's
      samples, starting from none. */
  lemma StepTimer(a: Aggregates, p: Packet)
    requires p.modifier == "ms"
    ensures Step(a, p).timers[p.bucket] == SamplesOf(a.timers, p.bucket) + [ParseFloatOrZero(p.value)]
    ensures |Step(a, p).timers[p.bucket]| == |SamplesOf(a.timers, p.bucket)| + 1
  {
  }

  /** Counter packets with rate 1 and a plain integer value n add exactly n,
      as long as the counter stays within 64 bits. */
  lemma StepCounterUnsampled(a: Aggregates, p: Packet)
    requires p.modifier != "ms" && p.modifier != "g" && p.sampling == 1.0
    requires |p.value| > 0 && AllDigits(p.value)
    requires MinInt64 <= IntOf(a.counters, p.bucket) + DigitsValue(p.value) <= MaxInt64
    ensures Step(a, p).counters[p.bucket] == IntOf(a.counters, p.bucket) + DigitsValue(p.value)
  {
    ParseDecimalDigits(p.value);
    assert ParseFloatOrZero(p.value) * (1.0 / 1.0) == DigitsValue(p.value) as real;
  }

  /** Applying a step keeps every counter and gauge within 64 bits. */
  lemma StepValid(a: Aggregates, p: Packet)
    requires Valid(a) && Applicable(p)
    ensures Valid(Step(a, p))
  {
  }

  /** A gauge value without a sign replaces the gauge, whatever it was; a
      value that is not an integer, such as "1.5", sets it to 0. */
  lemma GaugeReplaces(cur: int, value: string)
    requires |value| > 0 && value[0] != '+' && value[0] != '-'
    ensures GaugeAfter(cur, value) == GaugeAfter(0, value) == Atoi(value)
    ensures (exists k :: 0 < k < |value| && AllDigits(value[..k]) && value[k] == '.'
                         && DigitsValue(value[..k]) <= MaxUint64 && AllDigits(value[k + 1..]))
            ==> GaugeAfter(cur, value) == 0
  {
    if exists k :: 0 < k < |value| && AllDigits(value[..k]) && value[k] == '.'
                   && DigitsValue(value[..k]) <= MaxUint64 && AllDigits(value[k + 1..]) {
      var k :| 0 < k < |value| && AllDigits(value[..k]) && value[k] == '.'
               && DigitsValue(value[..k]) <= MaxUint64 && AllDigits(value[k + 1..]);
      AtoiNonDigit(value, k);
    }
  }

  /** Signed gauge values adjust: +n then -m from g gives g + n - m, for
      small enough numbers. */
  lemma GaugeAdjusts(g: int, n: string, m: string)
    requires MinInt64 <= g <= MaxInt64
    requires |n| > 0 && AllDigits(n) && |m| > 0 && AllDigits(m)
    requires DigitsValue(n) <= MaxInt64 && DigitsValue(m) <= MaxInt64
    requires MinInt64 <= g + DigitsValue(n) - DigitsValue(m) <= MaxInt64
    requires MinInt64 <= g + DigitsValue(n) <= MaxInt64
    ensures GaugeAfter(GaugeAfter(g, "+" + n), "-" + m) == g + DigitsValue(n) - DigitsValue(m)
  {
    assert ("+" + n)[1..] == n;
    assert ("-" + m)[1..] == m;
    AtoiDigits(n);
    AtoiDigits(m);
  }

  /** For a digit string n: "n" sets the gauge to v, "+n" adds v and "-n"
      subtracts v, both with 64-bit wrap-around, where v is the value of the
      digits, read as MaxInt64 beyond the int64 range. */
  lemma GaugeAfterDigits(cur: int, n: string)
    requires |n| > 0 && AllDigits(n)
    ensures Atoi(n) == if DigitsValue(n) <= MaxInt64 then DigitsValue(n) else MaxInt64
    ensures GaugeAfter(cur, n) == Atoi(n)
    ensures GaugeAfter(cur, "+" + n) == WrapInt64(cur + Atoi(n))
    ensures GaugeAfter(cur, "-" + n) == WrapInt64(cur - Atoi(n))
  {
    assert Atoi(n) == if DigitsValue(n) <= MaxInt64 then DigitsValue(n) else MaxInt64 by {
      AtoiDigits(n);
    }
    assert IsDigit(n[0]);
    SignedGauge(cur, n);
  }

  /** A signed gauge value acts with the Atoi of the text after its sign. */
  lemma SignedGauge(cur: int, rest: string)
    ensures GaugeAfter(cur, "+" + rest) == WrapInt64(cur + Atoi(rest))
    ensures GaugeAfter(cur, "-" + rest) == WrapInt64(cur - Atoi(rest))
  {
    assert ("+" + rest)[1..] == rest;
    assert ("-" + rest)[1..] == rest;
  }

  // ---------------------------------------------------------------------
  // Streams of packets

  /** The packets of a stream, applied in order. */
  function ApplyAll(a: Aggregates, ps: seq<Packet>): (b: Aggregates)
    requires forall i :: 0 <= i < |ps| ==> Applicable(ps[i])
    decreases |ps|
  {
    if ps == [] then a else Step(ApplyAll(a, ps[..|ps| - 1]), ps[|ps| - 1])
  }

  /** A stream keeps the maps within 64 bits. */
  lemma {:induction false} ApplyAllValid(a: Aggregates, ps: seq<Packet>)
    requires Valid(a) && forall i :: 0 <= i < |ps| ==> Applicable(ps[i])
    ensures Valid(ApplyAll(a, ps))
    decreases |ps|
  {
    if ps != [] {
      var n := |ps| - 1;
      ApplyAllValid(a, ps[..n]);
      StepValid(ApplyAll(a, ps[..n]), ps[n]);
    }
  }

  /** A stream never removes a bucket. */
  lemma {:induction false} ApplyAllGrows(a: Aggregates, ps: seq<Packet>)
    requires forall i :: 0 <= i < |ps| ==> Applicable(ps[i])
    ensures var b := ApplyAll(a, ps);
            a.counters.Keys <= b.counters.Keys && a.gauges.Keys <= b.gauges.Keys && a.timers.Keys <= b.timers.Keys
    decreases |ps|
  {
    if ps != [] {
      var n := |ps| - 1;
      ApplyAllGrows(a, ps[..n]);
      StepTouchesOneBucket(ApplyAll(a, ps[..n]), ps[n]);
    }
  }

  /** A counter sampled at a rate of 1/k is scaled up k times: an integer
      value n adds k * n, as long as the counter stays within 64 bits. */
  lemma StepCounterSampled(a: Aggregates, p: Packet, k: nat)
    requires p.modifier != "ms" && p.modifier != "g" && k > 0 && p.sampling == 1.0 / (k as real)
    requires |p.value| > 0 && AllDigits(p.value)
    requires MinInt64 <= IntOf(a.counters, p.bucket) + k * DigitsValue(p.value) <= MaxInt64
    ensures Step(a, p).counters[p.bucket] == IntOf(a.counters, p.bucket) + k * DigitsValue(p.value)
  {
    var n := DigitsValue(p.value);
    assert ParseFloatOrZero(p.value) == n as real by {
      ParseDecimalDigits(p.value);
    }
    CounterDeltaScaled(n, k, p.sampling);
    StepCounterBy(a, p, k * n);
  }

  /** At a rate of 1/k an integer n is scaled exactly to k * n, which the
      int conversion keeps: no sample is lost to truncation. */
  lemma CounterDeltaScaled(n: nat, k: nat, rate: real)
    requires k > 0 && rate == 1.0 / (k as real)
    ensures rate > 0.0 && CounterDelta(n as real, rate) == k * n
  {
    assert 1.0 / rate == k as real;
    assert (n as real) * (k as real) == (k * n) as real;
    assert Trunc((k * n) as real) == k * n;
  }

  /** A counter packet whose delta is d adds d, when no overflow happens. */
  lemma StepCounterBy(a: Aggregates, p: Packet, d: int)
    requires p.modifier != "ms" && p.modifier != "g" && p.sampling > 0.0
    requires CounterDelta(ParseFloatOrZero(p.value), p.sampling) == d
    requires MinInt64 <= IntOf(a.counters, p.bucket) + d <= MaxInt64
    ensures Step(a, p).counters[p.bucket] == IntOf(a.counters, p.bucket) + d
  {
  }

  // ---------------------------------------------------------------------
  // Decoding, then applying

  /** Decoded packets can always be applied except for counters whose rate
      is 0. */
  lemma DecodedApplicable(buf: string)
    ensures forall i :: 0 <= i < |Decode(buf)| ==>
              (Applicable(Decode(buf)[i]) <==> Decode(buf)[i].modifier != "c" || Decode(buf)[i].sampling != 0.0)
  {
  }

  /** The '+' branch of the gauge update is dead for decoded packets: a
      decoded gauge is either lowered by a '-' value or replaced. */
  lemma DecodedGaugeNeverAdds(a: Aggregates, buf: string, i: nat)
    requires i < |Decode(buf)| && Decode(buf)[i].modifier == "g"
    ensures var p := Decode(buf)[i];
            var g := Step(a, p).gauges[p.bucket];
            (p.value[0] == '-' ==> g == WrapInt64(IntOf(a.gauges, p.bucket) - Atoi(p.value[1..])))
            && (p.value[0] != '-' ==> g == Atoi(p.value))
  {
  }

  /** So "name:+n|g" sets the gauge to n instead of adding n to it. */
  lemma PlusGaugeReplaces(a: Aggregates, name: string, n: string)
    requires IsName(name) && |n| > 0 && AllDigits(n) && DigitsValue(n) <= MaxInt64
    ensures var ps := Decode(name + ":+" + n + "|g");
            ps == [Packet(name, n, "g", 1.0)] && Step(a, ps[0]).gauges[name] == DigitsValue(n)
  {
    assert IsRateText(n) by {
      forall i | 0 <= i < |n| ensures IsValueChar(n[i]) { assert IsDigit(n[i]); }
    }
    DecodeDropsPlus(name, n);
    assert n[0] != '-' && n[0] != '+' by { assert IsDigit(n[0]); }
    AtoiDigits(n);
  }
}

=== FILE: decoder.dfy ===
/** The packet decoder of handleMessage: strip every character outside the
    allowed set, then find, left to right and without overlap, every match
    of the pattern  name:value|type(|@rate)?  and turn each into a Packet.

    The pattern's parts are separated by characters outside the class of the
    part before them, so the leftmost-first regular expression behaves as a
    deterministic scanner: at a position it either matches (and the search
    resumes at the end of the match) or it does not (and the search moves on
    by one character). */
module Decoder {
  import opened Numbers

  /** One metric sample as the decoder hands it to the aggregator. */
  datatype Packet = Packet(bucket: string, value: string, modifier: string, sampling: real)

  /** One match of the pattern, as its capture groups hold it. `rate` is the
      text of the optional  |@rate  suffix. */
  datatype Match = Match(name: string, value: string, modifier: string, rate: Option<string>)

  // ---------------------------------------------------------------------
  // Character classes

  /** [a-zA-Z0-9\-_.:|@], the characters the sanitiser keeps. */
  predicate IsAllowed(c: char)
  {
    IsLetter(c) || IsDigit(c) || c == '-' || c == '_' || c == '.' || c == ':' || c == '|' || c == '@'
  }

  /** [a-zA-Z0-9_.], the characters of a bucket name. */
  predicate IsNameChar(c: char) { IsLetter(c) || IsDigit(c) || c == '_' || c == '.' }

  /** [0-9.], the characters of a value or of a sampling rate. */
  predicate IsValueChar(c: char) { IsDigit(c) || c == '.' }

  predicate IsName(s: string) { |s| > 0 && forall i :: 0 <= i < |s| ==> IsNameChar(s[i]) }

  /** Text matching  -?[0-9.]+ . */
  predicate IsValueText(s: string)
  {
    var digits := if |s| > 0 && s[0] == '-' then s[1..] else s;
    |digits| > 0 && forall i :: 0 <= i < |digits| ==> IsValueChar(digits[i])
  }

  /** Text of the value pattern is not empty, and every character is a
      digit or a dot except a leading minus sign. */
  lemma ValueTextChars(s: string)
    requires IsValueText(s)
    ensures |s| > 0 && s[0] != '+'
    ensures forall i :: 0 <= i < |s| ==> IsValueChar(s[i]) || (i == 0 && s[i] == '-')
  {
    var digits := if s[0] == '-' then s[1..] else s;
    forall i | 0 <= i < |s| ensures IsValueChar(s[i]) || (i == 0 && s[i] == '-') {
      if s[0] == '-' {
        if i > 0 { assert s[i] == digits[i - 1]; }
      } else {
        assert s[i] == digits[i];
      }
    }
  }

  predicate IsRateText(s: string) { |s| > 0 && forall i :: 0 <= i < |s| ==> IsValueChar(s[i]) }

  predicate IsModifier(s: string) { s == "c" || s == "ms" || s == "g" }

  // ---------------------------------------------------------------------
  // Sanitising

  /** The input with every character outside the allowed set removed. */
  function Sanitize(s: string): (r: string)
    ensures forall i :: 0 <= i < |r| ==> IsAllowed(r[i])
    ensures |r| <= |s|
  {
    if s == [] then [] else (if IsAllowed(s[0]) then [s[0]] else []) + Sanitize(s[1..])
  }

  /** Sanitising works character by character, so it distributes over
      concatenation: the kept characters stay in their original order. */
  lemma {:induction false} SanitizeAppend(a: string, b: string)
    ensures Sanitize(a + b) == Sanitize(a) + Sanitize(b)
  {
    if a != [] {
      assert (a + b)[1..] == a[1..] + b;
      SanitizeAppend(a[1..], b);
    } else {
      assert a + b == b;
    }
  }

  /** Every allowed character is kept as often as it occurs, and no other
      character survives. */
  lemma {:induction false} SanitizeKeepsExactly(s: string, c: char)
    ensures multiset(Sanitize(s))[c] == if IsAllowed(c) then multiset(s)[c] else 0
  {
    if s != [] {
      SanitizeKeepsExactly(s[1..], c);
      assert s == [s[0]] + s[1..];
      assert multiset(s) == multiset([s[0]]) + multiset(s[1..]);
    }
  }

  /** Text made only of allowed characters passes through unchanged. */
  lemma {:induction false} SanitizeAllowed(s: string)
    requires forall i :: 0 <= i < |s| ==> IsAllowed(s[i])
    ensures Sanitize(s) == s
  {
    if s != [] {
      SanitizeAllowed(s[1..]);
    }
  }

  /** Sanitising twice is sanitising once. */
  lemma SanitizeIdempotent(s: string)
    ensures Sanitize(Sanitize(s)) == Sanitize(s)
  {
    SanitizeAllowed(Sanitize(s));
  }

  // ---------------------------------------------------------------------
  // Matching at one position

  /** The two classes whose runs the pattern matches greedily. */
  datatype CharClass = NameChars | ValueChars

  predicate InClass(cls: CharClass, c: char)
  {
    if cls == NameChars then IsNameChar(c) else IsValueChar(c)
  }

  /** End of the longest run of characters in the class starting at i. */
  function RunEnd(s: string, i: nat, cls: CharClass): (j: nat)
    requires i <= |s|
    ensures i <= j <= |s|
    decreases |s| - i
  {
    if i < |s| && InClass(cls, s[i]) then RunEnd(s, i + 1, cls) else i
  }

  /** The run is maximal: every character in it is in the class, and the
      character after it, if any, is not. */
  lemma {:induction false} RunEndSpan(s: string, i: nat, cls: CharClass)
    requires i <= |s|
    ensures var j := RunEnd(s, i, cls);
            (forall k :: i <= k < j ==> InClass(cls, s[k])) && (j == |s| || !InClass(cls, s[j]))
    decreases |s| - i
  {
    if i < |s| && InClass(cls, s[i]) {
      RunEndSpan(s, i + 1, cls);
    }
  }

  /** And it is the only such run: RunEnd finds the run that the class
      delimits. */
  lemma {:induction false} RunEndIs(s: string, i: nat, j: nat, cls: CharClass)
    requires i <= j <= |s|
    requires forall k :: i <= k < j ==> InClass(cls, s[k])
    requires j == |s| || !InClass(cls, s[j])
    ensures RunEnd(s, i, cls) == j
    decreases j - i
  {
    if i < j {
      RunEndIs(s, i + 1, j, cls);
    }
  }

  /** The alternation (c|ms|g) at i, tried in that order. */
  function ModifierAt(s: string, i: nat): (r: Option<string>)
    requires i <= |s|
    ensures r.Some? ==> IsModifier(r.value) && i + |r.value| <= |s|
  {
    if i < |s| && s[i] == 'c' then Some("c")
    else if i + 1 < |s| && s[i] == 'm' && s[i + 1] == 's' then Some("ms")
    else if i < |s| && s[i] == 'g' then Some("g")
    else None
  }

  /** The optional group  (|@[0-9.]+)?  at i, taken whenever it matches, with
      the rate text and the position after the group. */
  function RateAt(s: string, i: nat): (r: (Option<string>, nat))
    requires i <= |s|
    ensures i <= r.1 <= |s|
    ensures r.0.None? ==> r.1 == i
    ensures r.0.Some? ==> r.1 == i + 2 + |r.0.value|
  {
    if i + 2 < |s| && s[i] == '|' && s[i + 1] == '@' && IsValueChar(s[i + 2]) then
      var e := RunEnd(s, i + 2, ValueChars);
      (Some(s[i + 2..e]), e)
    else (None, i)
  }

  /** The modifier found is the text at i. */
  lemma ModifierAtSound(s: string, i: nat)
    requires i <= |s|
    ensures var r := ModifierAt(s, i);
            r.Some? ==> s[i..i + |r.value|] == r.value
  {
  }

  /** The rate found is value text, and the group covers exactly  |@rate . */
  lemma RateAtSound(s: string, i: nat)
    requires i <= |s|
    ensures var r := RateAt(s, i);
            r.0.Some? ==> IsRateText(r.0.value) && s[i..r.1] == "|@" + r.0.value
  {
    if i + 2 < |s| && s[i] == '|' && s[i + 1] == '@' && IsValueChar(s[i + 2]) {
      var e := RunEnd(s, i + 2, ValueChars);
      RunEndSpan(s, i + 2, ValueChars);
      assert s[i..e] == "|@" + s[i + 2..e];
      var r := s[i + 2..e];
      assert forall k :: 0 <= k < |r| ==> r[k] == s[i + 2 + k];
    }
  }

  /** The text a match covers, rebuilt from its groups. */
  function Encode(m: Match): string
  {
    m.name + ":" + m.value + "|" + m.modifier + RateSuffix(m.rate)
  }

  /** The groups of a match obey the pattern's classes. */
  predicate WellFormed(m: Match)
  {
    IsName(m.name) && IsValueText(m.value) && IsModifier(m.modifier) && (m.rate.Some? ==> IsRateText(m.rate.value))
  }

  /** The match of the pattern at the very start of t, with its length, if
      any. What such a match is, is stated by MatchPrefixSound. */
  function MatchPrefix(t: string): (r: Option<(Match, nat)>)
    ensures r.Some? ==> 0 < r.value.1 <= |t|
  {
    var n := RunEnd(t, 0, NameChars);
    if n == 0 || n == |t| || t[n] != ':' then None
    else MatchValue(t, n)
  }

  /** The rest of a match whose name ends at n. */
  function MatchValue(t: string, n: nat): (r: Option<(Match, nat)>)
    requires 0 < n < |t|
    ensures r.Some? ==> n < r.value.1 <= |t|
  {
    var vs := if n + 1 < |t| && t[n + 1] == '-' then n + 2 else n + 1;
    var ve := RunEnd(t, vs, ValueChars);
    if ve == vs || ve == |t| || t[ve] != '|' then None
    else MatchTail(t, n, ve)
  }

  /** The rest of a match whose value ends at ve. */
  function MatchTail(t: string, n: nat, ve: nat): (r: Option<(Match, nat)>)
    requires n < ve < |t|
    ensures r.Some? ==> ve < r.value.1 <= |t|
  {
    match ModifierAt(t, ve + 1)
    case None => None
    case Some(mod) =>
      var rate := RateAt(t, ve + 1 + |mod|);
      Some((Match(t[..n], t[n + 1..ve], mod, rate.0), rate.1))
  }

  lemma Slice3(s: string, a: nat, b: nat, c: nat)
    requires a <= b <= c <= |s|
    ensures s[a..c] == s[a..b] + s[b..c]
  {
  }

  /** A match at the start of t has groups of the pattern's classes, and the
      text it covers is exactly their encoding. */
  lemma MatchPrefixSound(t: string)
    ensures var r := MatchPrefix(t);
            r.Some? ==> WellFormed(r.value.0) && t[..r.value.1] == Encode(r.value.0)
  {
    if MatchPrefix(t).Some? {
      var n, vs, ve, m, e := MatchPrefixParts(t);
      MatchGroupsSound(t, n, vs, ve, m, e);
    }
  }

  /** The positions at which a successful MatchPrefix splits its text. */
  lemma MatchPrefixParts(t: string) returns (n: nat, vs: nat, ve: nat, m: Match, e: nat)
    requires MatchPrefix(t).Some?
    ensures MatchPrefix(t) == Some((m, e))
    ensures 0 < n < |t| && t[n] == ':' && n == RunEnd(t, 0, NameChars)
    ensures vs == (if n + 1 < |t| && t[n + 1] == '-' then n + 2 else n + 1)
    ensures vs < ve < |t| && ve == RunEnd(t, vs, ValueChars) && t[ve] == '|'
    ensures ModifierAt(t, ve + 1) == Some(m.modifier)
    ensures RateAt(t, ve + 1 + |m.modifier|) == (m.rate, e)
    ensures m.name == t[..n] && m.value == t[n + 1..ve]
  {
    n := RunEnd(t, 0, NameChars);
    assert 0 < n < |t| && t[n] == ':' && MatchPrefix(t) == MatchValue(t, n);
    vs, ve := ValueParts(t, n);
    m, e := TailParts(t, n, ve);
  }

  /** Where the value group of a successful MatchValue starts and ends. */
  lemma ValueParts(t: string, n: nat) returns (vs: nat, ve: nat)
    requires 0 < n < |t| && MatchValue(t, n).Some?
    ensures vs == (if n + 1 < |t| && t[n + 1] == '-' then n + 2 else n + 1)
    ensures vs < ve < |t| && ve == RunEnd(t, vs, ValueChars) && t[ve] == '|'
    ensures MatchValue(t, n) == MatchTail(t, n, ve)
  {
    vs := if n + 1 < |t| && t[n + 1] == '-' then n + 2 else n + 1;
    ve := RunEnd(t, vs, ValueChars);
  }

  /** The groups of a successful MatchTail. */
  lemma TailParts(t: string, n: nat, ve: nat) returns (m: Match, e: nat)
    requires n < ve < |t| && MatchTail(t, n, ve).Some?
    ensures MatchTail(t, n, ve) == Some((m, e))
    ensures ModifierAt(t, ve + 1) == Some(m.modifier)
    ensures RateAt(t, ve + 1 + |m.modifier|) == (m.rate, e)
    ensures m.name == t[..n] && m.value == t[n + 1..ve]
  {
    var mod := ModifierAt(t, ve + 1).value;
    var rate := RateAt(t, ve + 1 + |mod|);
    m, e := Match(t[..n], t[n + 1..ve], mod, rate.0), rate.1;
  }

  /** The groups MatchPrefix reads, step by step, obey their classes and
      cover the text up to e. */
  lemma MatchGroupsSound(t: string, n: nat, vs: nat, ve: nat, m: Match, e: nat)
    requires 0 < n < |t| && t[n] == ':' && n == RunEnd(t, 0, NameChars)
    requires vs == (if n + 1 < |t| && t[n + 1] == '-' then n + 2 else n + 1)
    requires vs < ve < |t| && ve == RunEnd(t, vs, ValueChars) && t[ve] == '|'
    requires ModifierAt(t, ve + 1) == Some(m.modifier)
    requires RateAt(t, ve + 1 + |m.modifier|) == (m.rate, e)
    requires m.name == t[..n] && m.value == t[n + 1..ve]
    ensures e <= |t| && WellFormed(m) && t[..e] == Encode(m)
  {
    GroupsWellFormed(t, n, vs, ve, m, e);
    GroupsCover(t, n, ve, m, e);
  }

  lemma GroupsCover(t: string, n: nat, ve: nat, m: Match, e: nat)
    requires 0 < n < ve < |t| && t[n] == ':' && t[ve] == '|'
    requires ModifierAt(t, ve + 1) == Some(m.modifier)
    requires RateAt(t, ve + 1 + |m.modifier|) == (m.rate, e)
    requires m.name == t[..n] && m.value == t[n + 1..ve]
    ensures e <= |t| && t[..e] == Encode(m)
  {
    var me := ve + 1 + |m.modifier|;
    ModifierAtSound(t, ve + 1);
    RateAtSound(t, me);
    assert t[me..e] == RateSuffix(m.rate);
    assert t[..n] == t[0..n];
    MatchCovers(t, 0, n, ve, me, e, m);
    assert t[..e] == t[0..e];
  }

  lemma GroupsWellFormed(t: string, n: nat, vs: nat, ve: nat, m: Match, e: nat)
    requires 0 < n < |t| && t[n] == ':' && n == RunEnd(t, 0, NameChars)
    requires vs == (if n + 1 < |t| && t[n + 1] == '-' then n + 2 else n + 1)
    requires vs < ve < |t| && ve == RunEnd(t, vs, ValueChars) && t[ve] == '|'
    requires ModifierAt(t, ve + 1) == Some(m.modifier)
    requires RateAt(t, ve + 1 + |m.modifier|) == (m.rate, e)
    requires m.name == t[..n] && m.value == t[n + 1..ve]
    ensures WellFormed(m)
  {
    RunEndSpan(t, 0, NameChars);
    RunEndSpan(t, vs, ValueChars);
    RateAtSound(t, ve + 1 + |m.modifier|);
    assert t[..n] == t[0..n];
    MatchWellFormed(t, 0, n, vs, ve, m);
  }

  lemma ValueSlice(s: string, n: nat, vs: nat, ve: nat)
    requires n + 1 <= vs < ve <= |s|
    requires vs == n + 1 || (vs == n + 2 && s[n + 1] == '-')
    requires forall k :: vs <= k < ve ==> IsValueChar(s[k])
    ensures IsValueText(s[n + 1..ve])
  {
    var v := s[n + 1..ve];
    if vs == n + 2 {
      assert v[0] == '-' && v[1..] == s[vs..ve];
    } else {
      assert IsValueChar(v[0]) && v == s[vs..ve];
    }
  }

  lemma MatchWellFormed(s: string, i: nat, n: nat, vs: nat, ve: nat, m: Match)
    requires i < n < vs < ve <= |s|
    requires vs == n + 1 || (vs == n + 2 && s[n + 1] == '-')
    requires forall k :: i <= k < n ==> IsNameChar(s[k])
    requires forall k :: vs <= k < ve ==> IsValueChar(s[k])
    requires IsModifier(m.modifier) && (m.rate.Some? ==> IsRateText(m.rate.value))
    requires m.name == s[i..n] && m.value == s[n + 1..ve]
    ensures WellFormed(m)
  {
    ValueSlice(s, n, vs, ve);
    assert IsName(m.name) by {
      assert forall k :: 0 <= k < |m.name| ==> m.name[k] == s[i + k];
    }
  }

  lemma MatchCovers(s: string, i: nat, n: nat, ve: nat, me: nat, e: nat, m: Match)
    requires i < n < ve < me <= e <= |s|
    requires s[n] == ':' && s[ve] == '|'
    requires s[ve + 1..me] == m.modifier
    requires s[me..e] == RateSuffix(m.rate)
    requires m.name == s[i..n] && m.value == s[n + 1..ve]
    ensures s[i..e] == Encode(m)
  {
    TailCovers(s, ve, me, e, m.modifier, RateSuffix(m.rate));
    HeadCovers(s, i, n, ve, e, m.name, m.value, "|" + (m.modifier + RateSuffix(m.rate)));
    EncodeNested(m);
  }

  lemma TailCovers(s: string, ve: nat, me: nat, e: nat, mod: string, suffix: string)
    requires ve < me <= e <= |s| && s[ve] == '|' && s[ve + 1..me] == mod && s[me..e] == suffix
    ensures s[ve..e] == "|" + (mod + suffix)
  {
    Slice3(s, ve + 1, me, e);
    ConsSlice(s, ve, e);
  }

  lemma HeadCovers(s: string, i: nat, n: nat, ve: nat, e: nat, name: string, value: string, tail: string)
    requires i < n < ve <= e <= |s| && s[n] == ':' && s[i..n] == name && s[n + 1..ve] == value && s[ve..e] == tail
    ensures s[i..e] == name + (":" + (value + tail))
  {
    Slice3(s, n + 1, ve, e);
    ConsSlice(s, n, e);
    Slice3(s, i, n, e);
  }

  /** An encoding, grouped from the right. */
  lemma EncodeNested(m: Match)
    ensures Encode(m) == m.name + (":" + (m.value + ("|" + (m.modifier + RateSuffix(m.rate)))))
  {
    Assoc5(m.name, ":", m.value, "|", m.modifier, RateSuffix(m.rate));
  }

  lemma ConsSlice(s: string, a: nat, b: nat)
    requires a < b <= |s|
    ensures s[a..b] == [s[a]] + s[a + 1..b]
  {
  }

  lemma Assoc5(a: string, b: string, c: string, d: string, e: string, f: string)
    ensures a + (b + (c + (d + (e + f)))) == a + b + c + d + e + f
  {
  }

  /** Whether text following an encoded match would extend it: more rate
      digits, or a rate suffix where the match had none. */
  predicate Continues(m: Match, rest: string)
  {
    if m.rate.Some? then |rest| > 0 && IsValueChar(rest[0])
    else |rest| >= 3 && rest[0] == '|' && rest[1] == '@' && IsValueChar(rest[2])
  }

  /** A name at the start of t, followed by its colon, is the whole name
      run. */
  lemma NameRun(t: string, name: string)
    requires |name| < |t| && t[..|name|] == name && IsName(name) && t[|name|] == ':'
    ensures RunEnd(t, 0, NameChars) == |name|
  {
    forall k | 0 <= k < |name| ensures InClass(NameChars, t[k]) {
      assert t[k] == name[k];
    }
    RunEndIs(t, 0, |name|, NameChars);
  }

  /** Value text at a of t, followed by its bar, is the whole value run
      after the optional minus sign. */
  lemma ValueRun(t: string, a: nat, v: string)
    requires a + |v| < |t| && t[a..a + |v|] == v && IsValueText(v) && t[a + |v|] == '|'
    ensures var vs := if a < |t| && t[a] == '-' then a + 1 else a;
            vs < a + |v| && RunEnd(t, vs, ValueChars) == a + |v|
  {
    ValueTextChars(v);
    assert t[a] == v[0];
    var vs := if a < |t| && t[a] == '-' then a + 1 else a;
    forall k | vs <= k < a + |v| ensures InClass(ValueChars, t[k]) {
      assert t[k] == v[k - a];
    }
    RunEndIs(t, vs, a + |v|, ValueChars);
  }

  /** The rate suffix of an encoding, or nothing. */
  function RateSuffix(rate: Option<string>): string
  {
    if rate.Some? then "|@" + rate.value else ""
  }

  /** t is laid out as the encoding of m followed by rest: where each group
      of the encoding sits. */
  predicate LaidOut(t: string, m: Match, rest: string)
  {
    var n := |m.name|;
    var ve := n + 1 + |m.value|;
    var me := ve + 1 + |m.modifier|;
    && me <= |t|
    && t[..n] == m.name && t[n] == ':' && t[n + 1..ve] == m.value && t[ve] == '|'
    && t[ve + 1..me] == m.modifier && t[me..] == RateSuffix(m.rate) + rest
  }

  /** An encoding followed by anything is laid out as such. */
  lemma EncodedLayout(m: Match, rest: string)
    ensures LaidOut(Encode(m) + rest, m, rest)
  {
    var t, n := Encode(m) + rest, |m.name|;
    var ve := n + 1 + |m.value|;
    var me := ve + 1 + |m.modifier|;
    assert Encode(m) == m.name + ":" + m.value + "|" + m.modifier + RateSuffix(m.rate);
    assert t == m.name + ":" + m.value + "|" + m.modifier + (RateSuffix(m.rate) + rest);
  }

  /** The rate group is read back from its encoding unless what follows
      extends it. */
  lemma RateEncoded(t: string, me: nat, m: Match, rest: string)
    requires me <= |t| && t[me..] == RateSuffix(m.rate) + rest
    requires WellFormed(m) && !Continues(m, rest)
    ensures RateAt(t, me) == (m.rate, me + |RateSuffix(m.rate)|)
  {
    match m.rate {
      case None =>
        if me + 2 < |t| {
          assert t[me] == rest[0] && t[me + 1] == rest[1] && t[me + 2] == rest[2];
        }
      case Some(r) =>
        var e := me + 2 + |r|;
        assert t[me..e] == "|@" + r;
        assert t[me] == '|' && t[me + 1] == '@' && t[me + 2] == r[0];
        assert t[me + 2..e] == r;
        if e < |t| {
          assert t[e] == rest[0];
        }
        RunEndIs(t, me + 2, e, ValueChars);
    }
  }

  /** Each alternative of the modifier is read back from its text. */
  lemma ModifierEncoded(t: string, i: nat, mod: string)
    requires IsModifier(mod) && i + |mod| <= |t| && t[i..i + |mod|] == mod
    ensures ModifierAt(t, i) == Some(mod)
  {
    assert t[i] == mod[0];
    if mod == "ms" {
      assert t[i + 1] == mod[1];
    }
  }

  /** Round trip: the encoding of a well-formed match, followed by anything
      that does not extend it, is matched back to exactly that match. */
  lemma MatchEncoded(m: Match, rest: string)
    requires WellFormed(m) && !Continues(m, rest)
    ensures MatchPrefix(Encode(m) + rest) == Some((m, |Encode(m)|))
  {
    var t := Encode(m) + rest;
    EncodedLayout(m, rest);
    MatchLayout(t, m, rest);
    assert |t| - |rest| == |Encode(m)|;
  }

  /** The same, for any text laid out as an encoding followed by rest. */
  lemma MatchLayout(t: string, m: Match, rest: string)
    requires WellFormed(m) && !Continues(m, rest) && LaidOut(t, m, rest)
    ensures MatchPrefix(t) == Some((m, |t| - |rest|))
  {
    var n := |m.name|;
    var ve := n + 1 + |m.value|;
    LayoutRuns(t, m, rest);
    LayoutGroups(t, m, rest);
    MatchPrefixIs(t, n, ve, m.modifier, m.rate, |t| - |rest|);
    assert Match(t[..n], t[n + 1..ve], m.modifier, m.rate) == m;
  }

  /** The name and value runs of a layout end where its groups do. */
  lemma LayoutRuns(t: string, m: Match, rest: string)
    requires WellFormed(m) && LaidOut(t, m, rest)
    ensures var n := |m.name|;
            var ve := n + 1 + |m.value|;
            var vs := if n + 1 < |t| && t[n + 1] == '-' then n + 2 else n + 1;
            && 0 < n < |t| && t[n] == ':' && RunEnd(t, 0, NameChars) == n
            && vs < ve < |t| && RunEnd(t, vs, ValueChars) == ve && t[ve] == '|'
  {
    NameRun(t, m.name);
    ValueRun(t, |m.name| + 1, m.value);
  }

  /** The modifier and rate groups of a layout are read back. */
  lemma LayoutGroups(t: string, m: Match, rest: string)
    requires WellFormed(m) && !Continues(m, rest) && LaidOut(t, m, rest)
    ensures var ve := |m.name| + 1 + |m.value|;
            && ModifierAt(t, ve + 1) == Some(m.modifier)
            && ve + 1 + |m.modifier| <= |t| && RateAt(t, ve + 1 + |m.modifier|) == (m.rate, |t| - |rest|)
  {
    var ve := |m.name| + 1 + |m.value|;
    var me := ve + 1 + |m.modifier|;
    ModifierEncoded(t, ve + 1, m.modifier);
    RateEncoded(t, me, m, rest);
  }

  /** MatchPrefix in terms of the outcomes of its steps. */
  lemma MatchPrefixIs(t: string, n: nat, ve: nat, mod: string, rate: Option<string>, e: nat)
    requires 0 < n < |t| && t[n] == ':' && RunEnd(t, 0, NameChars) == n
    requires var vs := if n + 1 < |t| && t[n + 1] == '-' then n + 2 else n + 1;
             vs < ve < |t| && RunEnd(t, vs, ValueChars) == ve && t[ve] == '|'
    requires ModifierAt(t, ve + 1) == Some(mod)
    requires ve + 1 + |mod| <= |t| && RateAt(t, ve + 1 + |mod|) == (rate, e)
    ensures MatchPrefix(t) == Some((Match(t[..n], t[n + 1..ve], mod, rate), e))
  {
  }

  // ---------------------------------------------------------------------
  // Scanning

  /** FindAllStringSubmatch: the matches of the pattern in t, leftmost first
      and without overlap. A match at the start is taken and the search goes
      on after it; otherwise the search moves on by one character. */
  function Matches(t: string): (ms: seq<Match>)
    decreases |t|
  {
    if t == [] then []
    else
      match MatchPrefix(t)
      case Some((m, len)) => [m] + Matches(t[len..])
      case None => Matches(t[1..])
  }

  /** No match starts anywhere in t before position p. */
  predicate NoMatchBefore(t: string, p: nat)
  {
    p <= |t| && forall q :: 0 <= q < p ==> MatchPrefix(t[q..]).None?
  }

  /** Text in which no match starts is skipped: unmatched text never hides a
      later match, and is never part of one. */
  lemma {:induction false} MatchesSkip(t: string, p: nat)
    requires NoMatchBefore(t, p)
    ensures Matches(t) == Matches(t[p..])
    decreases p
  {
    if p > 0 {
      assert MatchPrefix(t[0..]).None?;
      assert t[0..] == t;
      var u := t[1..];
      assert NoMatchBefore(u, p - 1) by {
        forall q | 0 <= q < p - 1 ensures MatchPrefix(u[q..]).None? {
          assert u[q..] == t[q + 1..];
        }
      }
      MatchesSkip(u, p - 1);
      assert u[p - 1..] == t[p..];
    } else {
      assert t[0..] == t;
    }
  }

  /** Leftmost first: when the first match in t starts at p, it is the first
      match found, and the search resumes right after it. */
  lemma FirstMatch(t: string, p: nat)
    requires NoMatchBefore(t, p) && p < |t| && MatchPrefix(t[p..]).Some?
    ensures var (m, len) := MatchPrefix(t[p..]).value;
            Matches(t) == [m] + Matches(t[p + len..])
  {
    MatchesSkip(t, p);
    var len := MatchPrefix(t[p..]).value.1;
    assert t[p..][len..] == t[p + len..];
  }

  /** Text in which no match starts at all has no matches. */
  lemma NoMatch(t: string)
    requires NoMatchBefore(t, |t|)
    ensures Matches(t) == []
  {
    MatchesSkip(t, |t|);
  }

  /** Every match found is well formed. */
  lemma {:induction false} MatchesWellFormed(t: string)
    ensures forall k :: 0 <= k < |Matches(t)| ==> WellFormed(Matches(t)[k])
    decreases |t|
  {
    if t != [] {
      MatchPrefixSound(t);
      match MatchPrefix(t)
      case Some((m, len)) =>
        MatchesWellFormed(t[len..]);
      case None =>
        MatchesWellFormed(t[1..]);
    }
  }

  /** An encoded match followed by text that does not extend it decodes to
      that match followed by the matches of the text. */
  lemma MatchesOfEncoded(m: Match, rest: string)
    requires WellFormed(m) && !Continues(m, rest)
    ensures Matches(Encode(m) + rest) == [m] + Matches(rest)
  {
    var t := Encode(m) + rest;
    MatchEncoded(m, rest);
    assert t[|Encode(m)|..] == rest;
  }

  // ---------------------------------------------------------------------
  // From matches to packets

  /** The defaults applied to each match: an ms value that ParseFloat(_, 32)
      rejects becomes "0", and a rate that is absent or rejected becomes 1. */
  function ToPacket(m: Match): (p: Packet)
  {
    var value := if m.modifier == "ms" && ParseFloat32(m.value).None? then "0" else m.value;
    var sampling := if m.rate.Some? && ParseFloat32(m.rate.value).Some? then ParseFloat32(m.rate.value).value else 1.0;
    Packet(m.name, value, m.modifier, sampling)
  }

  /** What the defaults guarantee: the bucket and modifier are the match's,
      the value is the match's or, for an ms value that is not a decimal or is
      out of float32 range, "0"; the rate is the parsed suffix, or 1 when the
      suffix is absent, not a decimal or out of float32 range. */
  lemma ToPacketDefaults(m: Match)
    ensures ToPacket(m).bucket == m.name && ToPacket(m).modifier == m.modifier
    ensures m.modifier != "ms" || (ParseDecimal(m.value).Some? && AbsReal(ParseDecimal(m.value).value) < Float32Limit)
            ==> ToPacket(m).value == m.value
    ensures m.modifier == "ms" && !IsPlainDecimal(m.value) ==> ToPacket(m).value == "0"
    ensures m.modifier == "ms" && ParseDecimal(m.value).Some? && AbsReal(ParseDecimal(m.value).value) >= Float32Limit
            ==> ToPacket(m).value == "0"
    ensures m.rate.None? ==> ToPacket(m).sampling == 1.0
    ensures m.rate.Some? && !IsPlainDecimal(m.rate.value) ==> ToPacket(m).sampling == 1.0
    ensures m.rate.Some? && ParseDecimal(m.rate.value).Some? && AbsReal(ParseDecimal(m.rate.value).value) >= Float32Limit
            ==> ToPacket(m).sampling == 1.0
    ensures m.rate.Some? && ParseDecimal(m.rate.value).Some? && AbsReal(ParseDecimal(m.rate.value).value) < Float32Limit
            ==> ToPacket(m).sampling == ParseDecimal(m.rate.value).value
  {
    ParseDecimalAccepts(m.value);
    if m.rate.Some? {
      ParseDecimalAccepts(m.rate.value);
    }
  }

  /** Packets decoded from a well-formed match: the bucket is a name, the
      value has the pattern's shape (so never starts with '+'), the modifier
      is one of the three, and the sampling rate is not negative. */
  predicate IsDecodedPacket(p: Packet)
  {
    IsName(p.bucket) && IsValueText(p.value) && IsModifier(p.modifier) && p.sampling >= 0.0
  }

  lemma ToPacketShape(m: Match)
    requires WellFormed(m)
    ensures IsDecodedPacket(ToPacket(m))
  {
    DigitIsValueText('0');
    if m.rate.Some? && ParseFloat32(m.rate.value).Some? {
      var r := m.rate.value;
      assert r[0] != '-';
      ParseDecimalAccepts(r);
    }
  }

  function PacketsOf(ms: seq<Match>): (ps: seq<Packet>)
    ensures |ps| == |ms|
    ensures forall k :: 0 <= k < |ms| ==> ps[k] == ToPacket(ms[k])
  {
    seq(|ms|, k requires 0 <= k < |ms| => ToPacket(ms[k]))
  }

  /** handleMessage without the channel: the packets of one datagram, in the
      order their matches occur in the sanitised text. */
  function Decode(buf: string): (ps: seq<Packet>)
    ensures forall k :: 0 <= k < |ps| ==> IsDecodedPacket(ps[k])
    ensures forall k :: 0 <= k < |ps| ==> |ps[k].value| > 0 && ps[k].value[0] != '+'
  {
    var ms := Matches(Sanitize(buf));
    MatchesWellFormed(Sanitize(buf));
    forall k | 0 <= k < |ms|
      ensures IsDecodedPacket(ToPacket(ms[k]))
      ensures |ToPacket(ms[k]).value| > 0 && ToPacket(ms[k]).value[0] != '+'
    {
      ToPacketShape(ms[k]);
      ValueTextChars(ToPacket(ms[k]).value);
    }
    PacketsOf(ms)
  }

  /** Round trip: a well-formed match, encoded, decodes to its packet. */
  lemma DecodeEncode(m: Match)
    requires WellFormed(m)
    ensures Decode(Encode(m)) == [ToPacket(m)]
  {
    EncodeAllowed(m);
    SanitizeAllowed(Encode(m));
    MatchesOfEncoded(m, "");
    assert Encode(m) + "" == Encode(m);
    assert Matches("") == [];
  }

  lemma EncodeAllowed(m: Match)
    requires WellFormed(m)
    ensures forall i :: 0 <= i < |Encode(m)| ==> IsAllowed(Encode(m)[i])
  {
    ValueTextChars(m.value);
  }

  /** Two encodings in one datagram, separated by characters the sanitiser
      drops (a space, a newline), decode to two independent packets, unless
      the first ends in a rate and the second's bucket begins with a digit or
      a dot: with the separator gone, those characters extend the rate. */
  lemma DecodeTwo(m1: Match, sep: string, m2: Match)
    requires WellFormed(m1) && WellFormed(m2)
    requires forall i :: 0 <= i < |sep| ==> !IsAllowed(sep[i])
    requires m1.rate.None? || !IsValueChar(m2.name[0])
    ensures Decode(Encode(m1) + sep + Encode(m2)) == [ToPacket(m1), ToPacket(m2)]
  {
    SanitizeJoin(m1, sep, m2);
    MatchesTwo(m1, m2);
  }

  lemma MatchesTwo(m1: Match, m2: Match)
    requires WellFormed(m1) && WellFormed(m2)
    requires m1.rate.None? || !IsValueChar(m2.name[0])
    ensures Matches(Encode(m1) + Encode(m2)) == [m1, m2]
  {
    var e2 := Encode(m2);
    assert e2[0] == m2.name[0];
    MatchesOfEncoded(m1, e2);
    MatchesOfEncoded(m2, "");
    assert e2 + "" == e2;
  }

  lemma SanitizeJoin(m1: Match, sep: string, m2: Match)
    requires WellFormed(m1) && WellFormed(m2)
    requires forall i :: 0 <= i < |sep| ==> !IsAllowed(sep[i])
    ensures Sanitize(Encode(m1) + sep + Encode(m2)) == Encode(m1) + Encode(m2)
  {
    var e1, e2 := Encode(m1), Encode(m2);
    SanitizeAppend(e1 + sep, e2);
    SanitizeAppend(e1, sep);
    EncodeAllowed(m1);
    EncodeAllowed(m2);
    SanitizeAllowed(e1);
    SanitizeAllowed(e2);
    SanitizeDropsAll(sep);
    assert e1 + [] == e1;
  }

  lemma {:induction false} SanitizeDropsAll(s: string)
    requires forall i :: 0 <= i < |s| ==> !IsAllowed(s[i])
    ensures Sanitize(s) == []
  {
    if s != [] { SanitizeDropsAll(s[1..]); }
  }

  // ---------------------------------------------------------------------
  // Datagrams

  /** Two metrics separated by a space are two packets, each with the
      default rate. */
  lemma DecodeSpaceSeparated()
    ensures Decode("a:1|c b:2|c") == [Packet("a", "1", "c", 1.0), Packet("b", "2", "c", 1.0)]
  {
    var m1, m2 := Match("a", "1", "c", None), Match("b", "2", "c", None);
    DigitIsValueText('1');
    DigitIsValueText('2');
    assert Encode(m1) + " " + Encode(m2) == "a:1|c b:2|c";
    DecodeTwo(m1, " ", m2);
  }

  /** A character outside the allowed set, inserted anywhere into text made
      of allowed characters, is removed again. */
  lemma SanitizeDropsOne(x: string, k: nat, c: char)
    requires k <= |x| && !IsAllowed(c)
    requires forall i :: 0 <= i < |x| ==> IsAllowed(x[i])
    ensures Sanitize(x[..k] + [c] + x[k..]) == x
  {
    var a, b := x[..k], x[k..];
    SanitizeKeepsSlice(x, 0, k);
    SanitizeKeepsSlice(x, k, |x|);
    assert a == x[0..k] && b == x[k..|x|];
    SanitizeAppend(a, [c]);
    SanitizeAppend(a + [c], b);
    assert Sanitize([c]) == [];
    assert a + [] + b == x;
  }

  /** A slice of text made of allowed characters passes unchanged. */
  lemma SanitizeKeepsSlice(x: string, i: nat, j: nat)
    requires i <= j <= |x|
    requires forall k :: 0 <= k < |x| ==> IsAllowed(x[k])
    ensures Sanitize(x[i..j]) == x[i..j]
  {
    var y := x[i..j];
    assert forall k :: 0 <= k < |y| ==> y[k] == x[i + k];
    SanitizeAllowed(y);
  }

  lemma DigitIsValueText(c: char)
    requires IsDigit(c)
    ensures IsValueText([c])
  {
    var s := [c];
    assert s[0] != '-' && IsValueChar(s[0]);
    assert forall i :: 0 <= i < |s| ==> IsValueChar(s[i]);
  }

  /** The sanitiser removes '+', so a gauge value written with a plus sign
      reaches the aggregator unsigned. */
  lemma DecodeDropsPlus(name: string, v: string)
    requires IsName(name) && IsRateText(v)
    ensures Decode(name + ":+" + v + "|g") == [Packet(name, v, "g", 1.0)]
  {
    var m := Match(name, v, "g", None);
    assert IsValueText(v) by {
      assert v[0] != '-';
    }
    var e := Encode(m);
    var k := |name| + 1;
    assert name + ":+" + v + "|g" == e[..k] + ['+'] + e[k..];
    EncodeAllowed(m);
    SanitizeDropsOne(e, k, '+');
    var y := e[..k] + ['+'] + e[k..];
    assert Sanitize(y) == e;
    assert Decode(y) == PacketsOf(Matches(e));
    DecodeEncode(m);
    SanitizeAllowed(e);
    assert Decode(e) == PacketsOf(Matches(e));
    assert |m.modifier| == 1;
  }


  /** Because separators are removed before matching, digits and dots that
      begin the next metric's bucket are taken into a preceding rate: the
      rate grows by them and the next bucket loses them. */
  lemma DecodeRateAbsorbs(m1: Match, sep: string, d: string, m2: Match)
    requires WellFormed(m1) && m1.rate.Some? && WellFormed(m2)
    requires forall i :: 0 <= i < |sep| ==> !IsAllowed(sep[i])
    requires IsRateText(d) && !IsValueChar(m2.name[0])
    ensures Decode(Encode(m1) + sep + Encode(m2.(name := d + m2.name)))
            == [ToPacket(m1.(rate := Some(m1.rate.value + d))), ToPacket(m2)]
  {
    var m2' := m2.(name := d + m2.name);
    var m1' := m1.(rate := Some(m1.rate.value + d));
    assert IsName(m2'.name) by {
      forall i | 0 <= i < |m2'.name| ensures IsNameChar(m2'.name[i]) {
        if i < |d| { assert m2'.name[i] == d[i]; } else { assert m2'.name[i] == m2.name[i - |d|]; }
      }
    }
    assert IsRateText(m1'.rate.value) by {
      var r := m1.rate.value;
      forall i | 0 <= i < |r + d| ensures IsValueChar((r + d)[i]) {
        if i < |r| { assert (r + d)[i] == r[i]; } else { assert (r + d)[i] == d[i - |r|]; }
      }
    }
    SanitizeJoin(m1, sep, m2');
    assert Encode(m1) + Encode(m2') == Encode(m1') + Encode(m2) by {
      RegroupRate(m1, d, m2);
    }
    MatchesTwo(m1', m2);
  }

  lemma RegroupRate(m1: Match, d: string, m2: Match)
    requires m1.rate.Some?
    ensures Encode(m1) + Encode(m2.(name := d + m2.name))
            == Encode(m1.(rate := Some(m1.rate.value + d))) + Encode(m2)
  {
    var head := m1.name + ":" + m1.value + "|" + m1.modifier + "|@";
    var tail := ":" + m2.value + "|" + m2.modifier + RateSuffix(m2.rate);
    assert Encode(m1) == head + m1.rate.value;
    assert Encode(m2.(name := d + m2.name)) == d + m2.name + tail;
    assert Encode(m1.(rate := Some(m1.rate.value + d))) == head + (m1.rate.value + d);
    assert Encode(m2) == m2.name + tail;
  }

  /** Every match contains a bar. */
  lemma MatchNeedsBar(t: string)
    ensures MatchPrefix(t).Some? ==> '|' in t
  {
    var n := RunEnd(t, 0, NameChars);
    if MatchPrefix(t).Some? {
      var vs := if n + 1 < |t| && t[n + 1] == '-' then n + 2 else n + 1;
      var ve := RunEnd(t, vs, ValueChars);
      assert t[ve] == '|';
    }
  }

  /** A datagram with no bar in it, such as a metric cut off before its
      type, yields no packets. */
  lemma DecodeWithoutBar(buf: string)
    requires '|' !in buf
    ensures Decode(buf) == []
  {
    var t := Sanitize(buf);
    assert '|' !in t by {
      SanitizeKeepsExactly(buf, '|');
      assert multiset(t)['|'] == 0;
    }
    forall q | 0 <= q < |t| ensures MatchPrefix(t[q..]).None? {
      MatchNeedsBar(t[q..]);
    }
    NoMatch(t);
  }
}

=== FILE: numbers.dfy ===
/** Go's integer widths and the parts of strconv that the daemon relies on:
    Atoi (with its clamping on overflow), ParseFloat restricted to the plain
    decimal forms the packet pattern can deliver, truncating conversion of a
    float to an int, and truncating integer division. */
module Numbers {

  datatype Option<T> = None | Some(value: T)

  const MaxInt64: int := 0x7fff_ffff_ffff_ffff
  const MinInt64: int := -0x8000_0000_0000_0000
  const MaxUint64: int := 0xffff_ffff_ffff_ffff
  const MaxInt32: int := 0x7fff_ffff
  const MinInt32: int := -0x8000_0000

  /** Half an ulp above the largest float32: a decimal of this magnitude or
      more rounds to infinity, and ParseFloat(s, 32) reports a range error. */
  const Float32Limit: real := 340282356779733661637539395458142568448.0

  predicate IsDigit(c: char) { '0' <= c <= '9' }

  predicate IsLetter(c: char) { 'a' <= c <= 'z' || 'A' <= c <= 'Z' }

  predicate AllDigits(s: string) { forall i :: 0 <= i < |s| ==> IsDigit(s[i]) }

  function DigitValue(c: char): (d: nat)
    requires IsDigit(c)
    ensures d < 10
  {
    (c as int) - ('0' as int)
  }

  function Pow10(n: nat): (p: nat)
    ensures p >= 1
  {
    if n == 0 then 1 else 10 * Pow10(n - 1)
  }

  /** The number a string of decimal digits denotes, most significant first. */
  function DigitsValue(s: string): (n: nat)
    requires AllDigits(s)
    ensures n < Pow10(|s|)
  {
    if s == [] then 0
    else
      var d, p, rest := DigitValue(s[0]), Pow10(|s| - 1), DigitsValue(s[1..]);
      DigitPlace(d, p, rest);
      d * p + rest
  }

  /** A digit in the place of p, followed by less than p, stays below 10p. */
  lemma DigitPlace(d: nat, p: nat, rest: nat)
    requires d < 10 && rest < p
    ensures d * p + rest < 10 * p
  {
    assert (9 - d) * p >= 0;
  }

  /** Multiplying by 10^n is multiplying by 10^(n-1) and then by 10. */
  lemma MulPow10(a: int, n: nat)
    requires n >= 1
    ensures a * Pow10(n) == (a * Pow10(n - 1)) * 10
  {
    var x := Pow10(n - 1);
    assert Pow10(n) == 10 * x;
    assert a * (10 * x) == (a * x) * 10;
  }

  /** A multiple of a positive number is at least the multiplier. */
  lemma MulAtLeast(a: nat, b: nat)
    requires b >= 1
    ensures a * b >= a
  {
  }

  /** Appending a digit multiplies the value by ten and adds the digit. */
  lemma {:induction false} DigitsValueSnoc(s: string, c: char)
    requires AllDigits(s) && IsDigit(c)
    ensures AllDigits(s + [c])
    ensures DigitsValue(s + [c]) == DigitsValue(s) * 10 + DigitValue(c)
  {
    var t := s + [c];
    if s != [] {
      assert t[1..] == s[1..] + [c];
      DigitsValueSnoc(s[1..], c);
      var d0 := DigitValue(s[0]);
      MulPow10(d0, |s|);
      assert DigitsValue(t) == d0 * Pow10(|s|) + DigitsValue(s[1..]) * 10 + DigitValue(c);
      assert DigitsValue(s) == d0 * Pow10(|s| - 1) + DigitsValue(s[1..]);
    } else {
      assert DigitsValue(t) == DigitValue(c) * Pow10(0) + DigitsValue(t[1..]);
    }
  }

  /** Decimal rendering of a natural number, as fmt's %d writes it. */
  function NatToString(n: nat): string
  {
    var last := ['0' + (n % 10) as char];
    if n < 10 then last else NatToString(n / 10) + last
  }

  /** The rendering is a string of digits without a leading zero that
      spells n. */
  lemma {:induction false} NatToStringDigits(n: nat)
    ensures var s := NatToString(n);
            |s| > 0 && AllDigits(s) && DigitsValue(s) == n && (|s| > 1 ==> s[0] != '0')
  {
    var last := ['0' + (n % 10) as char];
    assert DigitValue(last[0]) == n % 10;
    if n >= 10 {
      NatToStringDigits(n / 10);
      DigitsValueSnoc(NatToString(n / 10), last[0]);
    }
  }

  // ---------------------------------------------------------------------
  // strconv.Atoi

  /** Outcome of strconv.ParseUint(s, 10, 64). */
  datatype UintParse = Parsed(n: nat) | SyntaxError | RangeError

  /** The digit loop of ParseUint with accumulator `acc`: a non-digit is a
      syntax error, but an overflow seen first is reported as a range error
      without looking at the rest of the text. */
  function ScanUint(s: string, acc: nat): (r: UintParse)
    requires acc <= MaxUint64
    ensures r.Parsed? ==> r.n <= MaxUint64
  {
    if s == [] then Parsed(acc)
    else if !IsDigit(s[0]) then SyntaxError
    else if acc * 10 + DigitValue(s[0]) > MaxUint64 then RangeError
    else ScanUint(s[1..], acc * 10 + DigitValue(s[0]))
  }

  /** One step of the digit loop moves the leading digit into the accumulator. */
  lemma ShiftDigit(acc: nat, d: nat, n: nat, rest: nat)
    requires n >= 1
    ensures acc * Pow10(n) + (d * Pow10(n - 1) + rest) == (acc * 10 + d) * Pow10(n - 1) + rest
  {
    var x := Pow10(n - 1);
    MulPow10(acc, n);
    assert (acc * 10 + d) * x == (acc * 10) * x + d * x;
    assert (acc * 10) * x == (acc * x) * 10;
  }

  /** On a string of digits the loop yields its value, or a range error when
      that value does not fit in 64 unsigned bits. */
  lemma {:induction false} ScanUintDigits(s: string, acc: nat)
    requires acc <= MaxUint64 && AllDigits(s)
    ensures var total := acc * Pow10(|s|) + DigitsValue(s);
            ScanUint(s, acc) == if total <= MaxUint64 then Parsed(total) else RangeError
  {
    if s != [] {
      var d := DigitValue(s[0]);
      var acc' := acc * 10 + d;
      var total := acc * Pow10(|s|) + DigitsValue(s);
      ShiftDigit(acc, d, |s|, DigitsValue(s[1..]));
      assert total == acc' * Pow10(|s| - 1) + DigitsValue(s[1..]);
      if acc' > MaxUint64 {
        MulAtLeast(acc', Pow10(|s| - 1));
      } else {
        ScanUintDigits(s[1..], acc');
      }
    } else {
      assert acc * Pow10(0) == acc;
    }
  }

  /** A non-digit reached before any overflow makes the loop a syntax error. */
  lemma {:induction false} ScanUintNonDigit(s: string, k: nat, acc: nat)
    requires acc <= MaxUint64 && k < |s|
    requires AllDigits(s[..k]) && !IsDigit(s[k])
    requires acc * Pow10(k) + DigitsValue(s[..k]) <= MaxUint64
    ensures ScanUint(s, acc) == SyntaxError
  {
    if k > 0 {
      var d := DigitValue(s[0]);
      var acc' := acc * 10 + d;
      assert s[..k][0] == s[0] && s[..k][1..] == s[1..][..k - 1];
      assert DigitsValue(s[..k]) == d * Pow10(k - 1) + DigitsValue(s[1..][..k - 1]);
      ShiftDigit(acc, d, k, DigitsValue(s[1..][..k - 1]));
      MulAtLeast(acc', Pow10(k - 1));
      ScanUintNonDigit(s[1..], k - 1, acc');
    }
  }

  /** strconv.Atoi on a 64-bit platform, with its error ignored: an optional
      sign, then digits; a syntax error yields 0 and an out-of-range value is
      clamped to the nearest int64 bound. */
  function Atoi(s: string): (r: int)
    ensures MinInt64 <= r <= MaxInt64
  {
    var neg := |s| > 0 && s[0] == '-';
    var body := if |s| > 0 && (s[0] == '-' || s[0] == '+') then s[1..] else s;
    var parsed := if body == [] then SyntaxError else ScanUint(body, 0);
    match parsed
    case SyntaxError => 0
    case RangeError => if neg then MinInt64 else MaxInt64
    case Parsed(n) =>
      if neg then (if n > -MinInt64 then MinInt64 else -(n as int))
      else (if n > MaxInt64 then MaxInt64 else n)
  }

  /** Atoi of a digit string, bare or signed, is its value while that fits in
      an int64, and the clamped bound beyond. */
  lemma AtoiDigits(ds: string)
    requires |ds| > 0 && AllDigits(ds)
    ensures DigitsValue(ds) <= MaxInt64 ==> Atoi(ds) == DigitsValue(ds) && Atoi("+" + ds) == DigitsValue(ds)
    ensures DigitsValue(ds) <= MaxInt64 ==> Atoi("-" + ds) == -(DigitsValue(ds) as int)
    ensures DigitsValue(ds) > MaxInt64 ==> Atoi(ds) == MaxInt64 && Atoi("+" + ds) == MaxInt64 && Atoi("-" + ds) == MinInt64
  {
    ScanUintDigits(ds, 0);
    assert 0 * Pow10(|ds|) == 0;
    var plus, minus := "+" + ds, "-" + ds;
    assert plus[0] == '+' && plus[1..] == ds;
    assert minus[0] == '-' && minus[1..] == ds;
  }

  /** An unsigned text with a non-digit right after its digit prefix is a
      syntax error for Atoi, which then yields 0 (as for "1.5"), provided the
      digits before it do not already overflow 64 unsigned bits. */
  lemma AtoiNonDigit(s: string, k: nat)
    requires k < |s| && AllDigits(s[..k]) && !IsDigit(s[k]) && s[0] != '-' && s[0] != '+'
    requires DigitsValue(s[..k]) <= MaxUint64
    ensures Atoi(s) == 0
  {
    if k > 0 {
      assert 0 * Pow10(k) == 0;
      ScanUintNonDigit(s, k, 0);
    }
  }

  // ---------------------------------------------------------------------
  // Integer widths

  /** Two's-complement wrap-around of Go's 64-bit int arithmetic. */
  function WrapInt64(x: int): (r: int)
    ensures MinInt64 <= r <= MaxInt64
    ensures (r - x) % 0x1_0000_0000_0000_0000 == 0
    ensures MinInt64 <= x <= MaxInt64 ==> r == x
  {
    (x - MinInt64) % 0x1_0000_0000_0000_0000 + MinInt64
  }

  /** Truncating conversion int32(x). */
  function WrapInt32(x: int): (r: int)
    ensures MinInt32 <= r <= MaxInt32
    ensures (r - x) % 0x1_0000_0000 == 0
    ensures MinInt32 <= x <= MaxInt32 ==> r == x
  {
    (x - MinInt32) % 0x1_0000_0000 + MinInt32
  }

  /** Go's int(f) for a float. */
  function Trunc(x: real): int
  {
    if x >= 0.0 then x.Floor else -((-x).Floor)
  }

  /** int(f) truncates toward zero: it drops the fraction of a positive
      value and of a negative one alike. */
  lemma TruncTowardZero(x: real)
    ensures x >= 0.0 ==> Trunc(x) as real <= x < Trunc(x) as real + 1.0
    ensures x < 0.0 ==> Trunc(x) as real - 1.0 < x <= Trunc(x) as real
    ensures Trunc(-x) == -Trunc(x)
    ensures x == x.Floor as real ==> Trunc(x) == x.Floor
  {
  }

  /** Go's `/` on ints, which truncates toward zero (Dafny's is Euclidean). */
  function GoDiv(a: int, b: int): (q: int)
    requires b != 0
    ensures var r := a - q * b;
            (a >= 0 ==> 0 <= r) && (a < 0 ==> r <= 0) && (r < 0 ==> -r < Abs(b)) && (r >= 0 ==> r < Abs(b))
  {
    if a >= 0 then (if b > 0 then a / b else -(a / -b))
    else (if b > 0 then -((-a) / b) else (-a) / (-b))
  }

  function Abs(x: int): nat { if x < 0 then -x else x }

  function AbsReal(x: real): real { if x < 0.0 then -x else x }

  // ---------------------------------------------------------------------
  // strconv.ParseFloat on plain decimals

  /** Position of the first '.' in s, or |s| when there is none. */
  function DotIndex(s: string): (k: nat)
    ensures k <= |s|
    ensures forall i :: 0 <= i < k ==> s[i] != '.'
    ensures k < |s| ==> s[k] == '.'
  {
    if s == [] then 0 else if s[0] == '.' then 0 else 1 + DotIndex(s[1..])
  }

  /** The text after an optional leading sign. */
  function Unsigned(s: string): (body: string)
    ensures |body| <= |s|
  {
    if |s| > 0 && (s[0] == '-' || s[0] == '+') then s[1..] else s
  }

  /** Digits with at most one '.' and at least one digit. */
  ghost predicate IsDecimalBody(body: string)
  {
    && (forall i :: 0 <= i < |body| ==> IsDigit(body[i]) || body[i] == '.')
    && (forall i, j :: 0 <= i < j < |body| && body[i] == '.' ==> body[j] != '.')
    && (exists i :: 0 <= i < |body| && IsDigit(body[i]))
  }

  /** A plain decimal in the grammar ParseFloat accepts: an optional sign,
      then a decimal body. */
  ghost predicate IsPlainDecimal(s: string)
  {
    IsDecimalBody(Unsigned(s))
  }

  /** Whole part of a decimal body: the text before its first '.'. */
  function WholePart(body: string): string
  {
    body[..DotIndex(body)]
  }

  /** Fraction part of a decimal body: the text after its first '.'. */
  function FracPart(body: string): string
  {
    var k := DotIndex(body);
    if k < |body| then body[k + 1..] else []
  }

  /** Splitting at the first '.' recognises exactly the decimal bodies. */
  lemma DecimalBodySplit(body: string)
    ensures var whole, frac := WholePart(body), FracPart(body);
            IsDecimalBody(body) <==> AllDigits(whole) && AllDigits(frac) && |whole| + |frac| > 0
  {
    var k := DotIndex(body);
    var whole, frac := WholePart(body), FracPart(body);
    assert k < |body| ==> body == whole + ['.'] + frac;
    assert k == |body| ==> body == whole;
    if AllDigits(whole) && AllDigits(frac) && |whole| + |frac| > 0 {
      if |whole| > 0 { assert IsDigit(body[0]); } else { assert IsDigit(body[k + 1]); }
      assert IsDecimalBody(body);
    }
    if IsDecimalBody(body) && k < |body| {
      forall i | 0 <= i < |frac| ensures IsDigit(frac[i]) {
        assert body[k + 1 + i] == frac[i];
      }
    }
  }

  /** v / 10^k, one decimal place at a time. */
  function Shift(v: real, k: nat): (r: real)
    ensures v >= 0.0 ==> r >= 0.0
  {
    if k == 0 then v else Shift(v, k - 1) / 10.0
  }

  /** The exact value of a plain decimal, or None when s is not one. */
  function ParseDecimal(s: string): Option<real>
  {
    var body := Unsigned(s);
    var whole, frac := WholePart(body), FracPart(body);
    if AllDigits(whole) && AllDigits(frac) && |whole| + |frac| > 0 then
      var v := DigitsValue(whole) as real + Shift(DigitsValue(frac) as real, |frac|);
      Some(if |s| > 0 && s[0] == '-' then -v else v)
    else
      None
  }

  /** ParseDecimal accepts exactly the plain decimals, and the unsigned
      ones denote values no less than 0; any other text, such as "1.2.3",
      is a syntax error whose ignored result is 0. */
  lemma ParseDecimalAccepts(s: string)
    ensures ParseDecimal(s).Some? <==> IsPlainDecimal(s)
    ensures ParseDecimal(s).Some? && (s == [] || s[0] != '-') ==> ParseDecimal(s).value >= 0.0
    ensures !IsPlainDecimal(s) ==> ParseFloatOrZero(s) == 0.0
  {
    DecimalBodySplit(Unsigned(s));
  }

  /** ParseFloat(s, 32) succeeding: a plain decimal whose magnitude does not
      round to infinity in single precision. */
  function ParseFloat32(s: string): Option<real>
  {
    match ParseDecimal(s)
    case None => None
    case Some(v) => if AbsReal(v) < Float32Limit then Some(v) else None
  }

  /** The value ParseFloat returns with its error ignored: 0 on a syntax error. */
  function ParseFloatOrZero(s: string): real
  {
    match ParseDecimal(s)
    case None => 0.0
    case Some(v) => v
  }

  /** A string of decimal digits parses to the number it spells. */
  lemma ParseDecimalDigits(ds: string)
    requires |ds| > 0 && AllDigits(ds)
    ensures ParseDecimal(ds) == Some(DigitsValue(ds) as real)
    ensures ParseFloatOrZero(ds) == DigitsValue(ds) as real
  {
    assert Unsigned(ds) == ds by { assert IsDigit(ds[0]); }
    DotIndexNone(ds);
    assert WholePart(ds) == ds && FracPart(ds) == [];
    assert DigitsValue([]) == 0 && Pow10(0) == 1;
  }

  /** A decimal with a dot parses to its whole digits plus its fraction
      digits shifted right by their count: "12.5" is 12 + Shift(5, 1), and
      ShiftIsDivision makes that 12 + 5/10. NegatedDecimal adds the sign. */
  lemma ParseDecimalFraction(w: string, f: string)
    requires AllDigits(w) && AllDigits(f) && |w| + |f| > 0
    ensures var body := w + "." + f;
            |body| > 0 && body[0] != '-' && body[0] != '+'
    ensures ParseDecimal(w + "." + f) == Some(DigitsValue(w) as real + Shift(DigitsValue(f) as real, |f|))
  {
    var body := w + "." + f;
    DottedParts(w, f);
    assert body[0] == '.' || IsDigit(body[0]);
    ParsesAs(body, w, f);
  }

  /** Shifting by k places divides by 10^k. */
  lemma {:induction false} ShiftIsDivision(v: real, k: nat)
    ensures Shift(v, k) == v / Pow10(k) as real
  {
    if k > 0 {
      ShiftIsDivision(v, k - 1);
      assert Pow10(k) as real == Pow10(k - 1) as real * 10.0;
    }
  }

  /** ParseDecimal of an unsigned body, given its whole and fraction parts. */
  lemma ParsesAs(body: string, w: string, f: string)
    requires |body| > 0 && body[0] != '-' && Unsigned(body) == body && WholePart(body) == w && FracPart(body) == f
    requires AllDigits(w) && AllDigits(f) && |w| + |f| > 0
    ensures ParseDecimal(body) == Some(DigitsValue(w) as real + Shift(DigitsValue(f) as real, |f|))
  {
  }

  /** The parts of a dotted decimal are the text around its dot. */
  lemma DottedParts(w: string, f: string)
    requires AllDigits(w)
    ensures var body := w + "." + f;
            Unsigned(body) == body && WholePart(body) == w && FracPart(body) == f
  {
    var body := w + "." + f;
    DotIndexAfter(w, "." + f);
    assert body == w + ("." + f);
    assert body[..|w|] == w && body[|w| + 1..] == f;
    assert body[0] == '.' || IsDigit(body[0]);
  }

  /** A '-' in front of an unsigned decimal negates its value. */
  lemma NegatedDecimal(body: string)
    requires |body| > 0 && body[0] != '-' && body[0] != '+'
    ensures ParseDecimal(body).Some? ==> ParseDecimal("-" + body) == Some(-ParseDecimal(body).value)
    ensures ParseDecimal(body).None? ==> ParseDecimal("-" + body).None?
  {
    assert Unsigned("-" + body) == body == Unsigned(body);
  }

  /** The first '.' after a run of digits is the one that ends the run. */
  lemma {:induction false} DotIndexAfter(w: string, rest: string)
    requires AllDigits(w) && |rest| > 0 && rest[0] == '.'
    ensures DotIndex(w + rest) == |w|
  {
    if w != [] {
      assert IsDigit(w[0]);
      assert (w + rest)[1..] == w[1..] + rest;
      DotIndexAfter(w[1..], rest);
    }
  }

  /** ParseFloat(s, 32) succeeds exactly on the plain decimals whose value
      stays below the float32 overflow bound; a digit string gives its
      number when that is below the bound and an error otherwise. */
  lemma ParseFloat32Accepts(s: string)
    ensures ParseFloat32(s).Some? <==> IsPlainDecimal(s) && AbsReal(ParseFloatOrZero(s)) < Float32Limit
    ensures ParseFloat32(s).Some? ==> ParseFloat32(s).value == ParseFloatOrZero(s)
    ensures |s| > 0 && AllDigits(s) ==>
              ParseFloat32(s) == if (DigitsValue(s) as real) < Float32Limit then Some(DigitsValue(s) as real) else None
  {
    ParseDecimalAccepts(s);
    if |s| > 0 && AllDigits(s) {
      ParseDecimalDigits(s);
    }
  }

  lemma {:induction false} DotIndexNone(s: string)
    requires AllDigits(s)
    ensures DotIndex(s) == |s|
  {
    if s != [] {
      assert IsDigit(s[0]);
      DotIndexNone(s[1..]);
    }
  }
}

=== FILE: reduction.dfy ===
/** What submit reports at a flush, stated as a function of the aggregate
    maps: two data points per counter, one per gauge, five per timer and a
    closing numStats point, all stamped with the flush time; and what the
    maps look like afterwards. The store's Flush method is proved against
    these definitions. */
module Reduction {
  import opened Numbers
  import opened Aggregates
  import opened Timers

  /** A reported value: counts and gauges are integers, rates and timer
      statistics are floating point. */
  datatype Value = IntValue(i: int) | RealValue(r: real)

  /** One line of the report: a metric path, its value and the timestamp. */
  datatype DataPoint = DataPoint(name: string, value: Value, stamp: int)

  /** The command-line settings submit reads: the flush interval in seconds,
      the percentile threshold and the four path prefixes. */
  datatype Config = Config(
    flushInterval: int,
    percentThreshold: int,
    statsPrefix: string,
    countersPrefix: string,
    gaugesPrefix: string,
    timersPrefix: string)

  /** A ticker needs a positive interval, and the threshold names a
      percentile. */
  predicate ValidConfig(cfg: Config)
  {
    cfg.flushInterval > 0 && 0 < cfg.percentThreshold < 200
  }

  /** The order in which a flush visits each map's buckets; Go leaves map
      iteration order unspecified, so the model takes it as a parameter. */
  datatype KeyOrder = KeyOrder(counters: seq<string>, gauges: seq<string>, timers: seq<string>)

  predicate Distinct(keys: seq<string>)
  {
    forall i, j :: 0 <= i < j < |keys| ==> keys[i] != keys[j]
  }

  /** keys lists every member of s exactly once. */
  predicate Enumerates(keys: seq<string>, s: set<string>)
  {
    && Distinct(keys)
    && (forall k :: k in keys ==> k in s)
    && (forall k :: k in s ==> k in keys)
  }

  /** Visiting the i-th key of a list without repeats extends the keys
      visited so far by a key not among them. */
  lemma VisitNext(keys: seq<string>, i: nat)
    requires Distinct(keys) && i < |keys|
    ensures keys[..i + 1] == keys[..i] + [keys[i]]
    ensures keys[i] !in keys[..i]
  {
  }

  /** order is a possible iteration order of the three maps of a. */
  predicate OrderOf(order: KeyOrder, a: Aggregates)
  {
    && Enumerates(order.counters, a.counters.Keys)
    && Enumerates(order.gauges, a.gauges.Keys)
    && Enumerates(order.timers, a.timers.Keys)
  }

  // ---------------------------------------------------------------------
  // The data points of one bucket

  /** A counter's per-second rate: the count over the flush interval, which
      submit writes as the interval in nanoseconds over 1e3. */
  function CounterRate(c: int, flushInterval: int): real
    requires flushInterval > 0
  {
    c as real / (flushInterval as real * 1000000.0)
  }

  /** The two points of a counter: its rate under the stats prefix and its
      raw count under the counters prefix. */
  function CounterPair(cfg: Config, s: string, c: int, now: int): seq<DataPoint>
    requires ValidConfig(cfg)
  {
    [DataPoint(cfg.statsPrefix + s, RealValue(CounterRate(c, cfg.flushInterval)), now),
     DataPoint(cfg.countersPrefix + s, IntValue(c), now)]
  }

  /** The five points of a timer: .mean, .upper, .upper_P, .lower, .count. */
  function TimerLines(cfg: Config, u: string, st: TimerStats, now: int): seq<DataPoint>
    requires ValidConfig(cfg)
  {
    var path := cfg.timersPrefix + u;
    [DataPoint(path + ".mean", RealValue(st.mean), now),
     DataPoint(path + ".upper", RealValue(st.upper), now),
     DataPoint(path + ".upper_" + NatToString(cfg.percentThreshold), RealValue(st.upperAtThreshold), now),
     DataPoint(path + ".lower", RealValue(st.lower), now),
     DataPoint(path + ".count", IntValue(st.count), now)]
  }

  // ---------------------------------------------------------------------
  // The three sections of the report

  function CounterPoints(cfg: Config, m: map<string, int>, keys: seq<string>, now: int): (ps: seq<DataPoint>)
    requires ValidConfig(cfg) && forall k :: k in keys ==> k in m
  {
    if keys == [] then []
    else
      var s := keys[|keys| - 1];
      CounterPoints(cfg, m, keys[..|keys| - 1], now) + CounterPair(cfg, s, m[s], now)
  }

  function GaugePoints(cfg: Config, m: map<string, int>, keys: seq<string>, now: int): (ps: seq<DataPoint>)
    requires forall k :: k in keys ==> k in m
    ensures |ps| == |keys|
  {
    if keys == [] then []
    else
      var g := keys[|keys| - 1];
      GaugePoints(cfg, m, keys[..|keys| - 1], now) + [DataPoint(cfg.gaugesPrefix + g, IntValue(m[g]), now)]
  }

  function TimerPoints(cfg: Config, m: map<string, seq<real>>, keys: seq<string>, now: int): (ps: seq<DataPoint>)
    requires ValidConfig(cfg) && forall k :: k in keys ==> k in m
  {
    if keys == [] then []
    else
      var u := keys[|keys| - 1];
      TimerPoints(cfg, m, keys[..|keys| - 1], now) + TimerLines(cfg, u, StatsOf(m[u]), now)
  }

  /** Two points per counter. */
  lemma {:induction false} CounterPointsCount(cfg: Config, m: map<string, int>, keys: seq<string>, now: int)
    requires ValidConfig(cfg) && forall k :: k in keys ==> k in m
    ensures |CounterPoints(cfg, m, keys, now)| == 2 * |keys|
  {
    if keys != [] {
      CounterPointsCount(cfg, m, keys[..|keys| - 1], now);
    }
  }

  /** Five points per timer. */
  lemma {:induction false} TimerPointsCount(cfg: Config, m: map<string, seq<real>>, keys: seq<string>, now: int)
    requires ValidConfig(cfg) && forall k :: k in keys ==> k in m
    ensures |TimerPoints(cfg, m, keys, now)| == 5 * |keys|
  {
    if keys != [] {
      TimerPointsCount(cfg, m, keys[..|keys| - 1], now);
    }
  }

  /** Visiting one more timer appends its five points. */
  lemma TimerPointsNext(cfg: Config, m: map<string, seq<real>>, keys: seq<string>, now: int, i: nat)
    requires ValidConfig(cfg) && (forall k :: k in keys ==> k in m) && i < |keys|
    ensures TimerPoints(cfg, m, keys[..i + 1], now)
            == TimerPoints(cfg, m, keys[..i], now) + TimerLines(cfg, keys[i], StatsOf(m[keys[i]]), now)
  {
    assert keys[..i + 1][..i] == keys[..i];
  }

  /** Visiting one more counter appends its two points. */
  lemma CounterPointsNext(cfg: Config, m: map<string, int>, keys: seq<string>, now: int, i: nat)
    requires ValidConfig(cfg) && (forall k :: k in keys ==> k in m) && i < |keys|
    ensures CounterPoints(cfg, m, keys[..i + 1], now)
            == CounterPoints(cfg, m, keys[..i], now) + CounterPair(cfg, keys[i], m[keys[i]], now)
  {
    assert keys[..i + 1][..i] == keys[..i];
  }

  /** The counters once the ones in done are back to 0. */
  function CountersCleared(m: map<string, int>, done: seq<string>): map<string, int>
  {
    map k | k in m :: if k in done then 0 else m[k]
  }

  /** Resetting one more counter. */
  lemma CountersClearedNext(m: map<string, int>, keys: seq<string>, i: nat)
    requires i < |keys| && keys[i] in m
    ensures CountersCleared(m, keys[..i + 1]) == CountersCleared(m, keys[..i])[keys[i] := 0]
  {
    assert keys[..i + 1] == keys[..i] + [keys[i]];
  }

  /** Once every counter is visited, every counter is 0. */
  lemma CountersClearedAll(m: map<string, int>, keys: seq<string>)
    requires forall k :: k in m ==> k in keys
    ensures CountersCleared(m, keys) == map k | k in m :: 0
  {
  }

  /** The timers once the ones in done are emptied. */
  function TimersCleared(m: map<string, seq<real>>, done: seq<string>): map<string, seq<real>>
  {
    map k | k in m :: if k in done then [] else m[k]
  }

  /** Emptying one more timer. */
  lemma TimersClearedNext(m: map<string, seq<real>>, keys: seq<string>, i: nat)
    requires i < |keys| && keys[i] in m
    ensures TimersCleared(m, keys[..i + 1]) == TimersCleared(m, keys[..i])[keys[i] := []]
  {
    assert keys[..i + 1] == keys[..i] + [keys[i]];
  }

  /** Once every timer is visited, every timer is empty. */
  lemma TimersClearedAll(m: map<string, seq<real>>, keys: seq<string>)
    requires forall k :: k in m ==> k in keys
    ensures TimersCleared(m, keys) == map k | k in m :: []
  {
  }

  /** The closing point: how many buckets were reported. */
  function NumStatsPoint(cfg: Config, numStats: int, now: int): DataPoint
  {
    DataPoint(cfg.statsPrefix + "statsd.numStats", IntValue(numStats), now)
  }

  /** Everything one flush reports, stamped with int32 of the Unix time. */
  function Snapshot(a: Aggregates, cfg: Config, unix: int, order: KeyOrder): seq<DataPoint>
    requires ValidConfig(cfg) && OrderOf(order, a)
  {
    var now := WrapInt32(unix);
    CounterPoints(cfg, a.counters, order.counters, now)
    + GaugePoints(cfg, a.gauges, order.gauges, now)
    + TimerPoints(cfg, a.timers, order.timers, now)
    + [NumStatsPoint(cfg, |order.counters| + |order.gauges| + |order.timers|, now)]
  }

  /** The maps after a flush: every counter back to 0, the gauges kept,
      every timer emptied; no bucket is removed. */
  function Reset(a: Aggregates): (b: Aggregates)
    ensures b.counters.Keys == a.counters.Keys && b.gauges == a.gauges && b.timers.Keys == a.timers.Keys
    ensures forall k :: k in b.counters ==> b.counters[k] == 0
    ensures forall k :: k in b.timers ==> b.timers[k] == []
  {
    Aggregates(map k | k in a.counters :: 0, a.gauges, map k | k in a.timers :: [])
  }

  // ---------------------------------------------------------------------
  // Properties of a flush

  /** A sequence listing each member of a set once is as long as the set is
      large. */
  lemma {:induction false} EnumeratesCard(keys: seq<string>, s: set<string>)
    requires Enumerates(keys, s)
    ensures |keys| == |s|
    decreases |keys|
  {
    if keys == [] {
      assert s == {};
    } else {
      var n := |keys| - 1;
      var front := keys[..n];
      forall k
        ensures k in front <==> k in s - {keys[n]}
      {
        if k in front {
          var j :| 0 <= j < n && front[j] == k;
          assert keys[j] != keys[n];
        }
        if k in keys && k != keys[n] {
          var j :| 0 <= j < |keys| && keys[j] == k;
          assert front[j] == k;
        }
      }
      EnumeratesCard(front, s - {keys[n]});
    }
  }

  /** Every set has an iteration order. */
  ghost function SomeOrder(s: set<string>): (keys: seq<string>)
    ensures Enumerates(keys, s)
    decreases |s|
  {
    if s == {} then []
    else
      var k :| k in s;
      var rest := SomeOrder(s - {k});
      assert forall j :: 0 <= j < |rest| ==> rest[j] != k;
      rest + [k]
  }

  /** A flush can happen in every state: every state has an iteration
      order. */
  lemma OrderExists(a: Aggregates)
    ensures OrderOf(KeyOrder(SomeOrder(a.counters.Keys), SomeOrder(a.gauges.Keys), SomeOrder(a.timers.Keys)), a)
  {
  }

  /** A flush reports two points per counter, one per gauge, five per timer
      and the numStats point, which comes last and counts every bucket of the
      three maps once. */
  lemma SnapshotShape(a: Aggregates, cfg: Config, unix: int, order: KeyOrder)
    requires ValidConfig(cfg) && OrderOf(order, a)
    ensures var ps := Snapshot(a, cfg, unix, order);
            && |ps| == 2 * |a.counters| + |a.gauges| + 5 * |a.timers| + 1
            && ps[|ps| - 1] == NumStatsPoint(cfg, |a.counters| + |a.gauges| + |a.timers|, WrapInt32(unix))
  {
    OrderSizes(a, order);
    var now := WrapInt32(unix);
    CounterPointsCount(cfg, a.counters, order.counters, now);
    TimerPointsCount(cfg, a.timers, order.timers, now);
  }

  /** Every point carries the same timestamp, the flush time cut to 32
      bits. */
  lemma SnapshotStamps(a: Aggregates, cfg: Config, unix: int, order: KeyOrder)
    requires ValidConfig(cfg) && OrderOf(order, a)
    ensures forall p :: p in Snapshot(a, cfg, unix, order) ==> p.stamp == WrapInt32(unix)
    ensures MinInt32 <= WrapInt32(unix) <= MaxInt32
  {
    var now := WrapInt32(unix);
    CounterStamps(cfg, a.counters, order.counters, now);
    GaugeStamps(cfg, a.gauges, order.gauges, now);
    TimerStamps(cfg, a.timers, order.timers, now);
  }

  lemma {:induction false} CounterStamps(cfg: Config, m: map<string, int>, keys: seq<string>, now: int)
    requires ValidConfig(cfg) && forall k :: k in keys ==> k in m
    ensures forall p :: p in CounterPoints(cfg, m, keys, now) ==> p.stamp == now
  {
    if keys != [] {
      CounterStamps(cfg, m, keys[..|keys| - 1], now);
    }
  }

  lemma {:induction false} GaugeStamps(cfg: Config, m: map<string, int>, keys: seq<string>, now: int)
    requires forall k :: k in keys ==> k in m
    ensures forall p :: p in GaugePoints(cfg, m, keys, now) ==> p.stamp == now
  {
    if keys != [] {
      GaugeStamps(cfg, m, keys[..|keys| - 1], now);
    }
  }

  lemma {:induction false} TimerStamps(cfg: Config, m: map<string, seq<real>>, keys: seq<string>, now: int)
    requires ValidConfig(cfg) && forall k :: k in keys ==> k in m
    ensures forall p :: p in TimerPoints(cfg, m, keys, now) ==> p.stamp == now
  {
    if keys != [] {
      TimerStamps(cfg, m, keys[..|keys| - 1], now);
    }
  }

  /** The i-th counter visited owns points 2i and 2i+1: its rate and its
      count. */
  lemma {:induction false} CounterPointsAt(cfg: Config, m: map<string, int>, keys: seq<string>, now: int, i: nat)
    requires ValidConfig(cfg) && (forall k :: k in keys ==> k in m) && i < |keys|
    ensures |CounterPoints(cfg, m, keys, now)| == 2 * |keys|
    ensures CounterPoints(cfg, m, keys, now)[2 * i..2 * i + 2] == CounterPair(cfg, keys[i], m[keys[i]], now)
  {
    CounterPointsCount(cfg, m, keys, now);
    var n := |keys| - 1;
    var front := CounterPoints(cfg, m, keys[..n], now);
    CounterPointsCount(cfg, m, keys[..n], now);
    assert CounterPoints(cfg, m, keys, now) == front + CounterPair(cfg, keys[n], m[keys[n]], now);
    if i < n {
      CounterPointsAt(cfg, m, keys[..n], now, i);
    }
  }

  /** The i-th gauge visited owns point i: its current value. */
  lemma {:induction false} GaugePointsAt(cfg: Config, m: map<string, int>, keys: seq<string>, now: int, i: nat)
    requires (forall k :: k in keys ==> k in m) && i < |keys|
    ensures GaugePoints(cfg, m, keys, now)[i] == DataPoint(cfg.gaugesPrefix + keys[i], IntValue(m[keys[i]]), now)
  {
    var n := |keys| - 1;
    if i < n {
      GaugePointsAt(cfg, m, keys[..n], now, i);
    }
  }

  /** The i-th timer visited owns points 5i to 5i+4: the statistics of its
      samples. */
  lemma {:induction false} TimerPointsAt(cfg: Config, m: map<string, seq<real>>, keys: seq<string>, now: int, i: nat)
    requires ValidConfig(cfg) && (forall k :: k in keys ==> k in m) && i < |keys|
    ensures |TimerPoints(cfg, m, keys, now)| == 5 * |keys|
    ensures TimerPoints(cfg, m, keys, now)[5 * i..5 * i + 5] == TimerLines(cfg, keys[i], StatsOf(m[keys[i]]), now)
  {
    TimerPointsCount(cfg, m, keys, now);
    var n := |keys| - 1;
    var front := TimerPoints(cfg, m, keys[..n], now);
    TimerPointsCount(cfg, m, keys[..n], now);
    assert TimerPoints(cfg, m, keys, now) == front + TimerLines(cfg, keys[n], StatsOf(m[keys[n]]), now);
    if i < n {
      TimerPointsAt(cfg, m, keys[..n], now, i);
    }
  }

  /** A counter's points are in the report exactly when it is one of the
      keys visited. */
  lemma {:induction false} CounterPointsMembers(cfg: Config, m: map<string, int>, keys: seq<string>, now: int, p: DataPoint)
    requires ValidConfig(cfg) && forall k :: k in keys ==> k in m
    ensures p in CounterPoints(cfg, m, keys, now) <==> exists k :: k in keys && p in CounterPair(cfg, k, m[k], now)
  {
    if keys != [] {
      var n := |keys| - 1;
      var front, last := keys[..n], keys[n];
      CounterPointsMembers(cfg, m, front, now, p);
      assert CounterPoints(cfg, m, keys, now) == CounterPoints(cfg, m, front, now) + CounterPair(cfg, last, m[last], now);
      assert forall k :: k in keys <==> k in front || k == last by {
        assert keys == front + [last];
      }
    }
  }

  lemma {:induction false} GaugePointsMembers(cfg: Config, m: map<string, int>, keys: seq<string>, now: int, p: DataPoint)
    requires forall k :: k in keys ==> k in m
    ensures p in GaugePoints(cfg, m, keys, now) <==> exists k :: k in keys && p == DataPoint(cfg.gaugesPrefix + k, IntValue(m[k]), now)
  {
    if keys != [] {
      var n := |keys| - 1;
      var front, last := keys[..n], keys[n];
      GaugePointsMembers(cfg, m, front, now, p);
      assert GaugePoints(cfg, m, keys, now) == GaugePoints(cfg, m, front, now) + [DataPoint(cfg.gaugesPrefix + last, IntValue(m[last]), now)];
      assert forall k :: k in keys <==> k in front || k == last by {
        assert keys == front + [last];
      }
    }
  }

  lemma {:induction false} TimerPointsMembers(cfg: Config, m: map<string, seq<real>>, keys: seq<string>, now: int, p: DataPoint)
    requires ValidConfig(cfg) && forall k :: k in keys ==> k in m
    ensures p in TimerPoints(cfg, m, keys, now) <==> exists k :: k in keys && p in TimerLines(cfg, k, StatsOf(m[k]), now)
  {
    if keys != [] {
      var n := |keys| - 1;
      var front, last := keys[..n], keys[n];
      TimerPointsMembers(cfg, m, front, now, p);
      assert TimerPoints(cfg, m, keys, now) == TimerPoints(cfg, m, front, now) + TimerLines(cfg, last, StatsOf(m[last]), now);
      assert forall k :: k in keys <==> k in front || k == last by {
        assert keys == front + [last];
      }
    }
  }

  /** A counter is reported with its rate and its count. */
  lemma CounterReported(a: Aggregates, cfg: Config, unix: int, order: KeyOrder, k: string)
    requires ValidConfig(cfg) && OrderOf(order, a) && k in a.counters
    ensures var ps, now := Snapshot(a, cfg, unix, order), WrapInt32(unix);
            && DataPoint(cfg.statsPrefix + k, RealValue(CounterRate(a.counters[k], cfg.flushInterval)), now) in ps
            && DataPoint(cfg.countersPrefix + k, IntValue(a.counters[k]), now) in ps
  {
    var now := WrapInt32(unix);
    var pair := CounterPair(cfg, k, a.counters[k], now);
    CounterPointsMembers(cfg, a.counters, order.counters, now, pair[0]);
    CounterPointsMembers(cfg, a.counters, order.counters, now, pair[1]);
  }

  /** A gauge is reported with its current value. */
  lemma GaugeReported(a: Aggregates, cfg: Config, unix: int, order: KeyOrder, k: string)
    requires ValidConfig(cfg) && OrderOf(order, a) && k in a.gauges
    ensures DataPoint(cfg.gaugesPrefix + k, IntValue(a.gauges[k]), WrapInt32(unix)) in Snapshot(a, cfg, unix, order)
  {
    var now := WrapInt32(unix);
    GaugePointsMembers(cfg, a.gauges, order.gauges, now, DataPoint(cfg.gaugesPrefix + k, IntValue(a.gauges[k]), now));
  }

  /** A timer is reported with the five statistics of its samples. */
  lemma TimerReported(a: Aggregates, cfg: Config, unix: int, order: KeyOrder, k: string)
    requires ValidConfig(cfg) && OrderOf(order, a) && k in a.timers
    ensures forall p :: p in TimerLines(cfg, k, StatsOf(a.timers[k]), WrapInt32(unix)) ==> p in Snapshot(a, cfg, unix, order)
  {
    var now := WrapInt32(unix);
    forall p | p in TimerLines(cfg, k, StatsOf(a.timers[k]), now)
      ensures p in TimerPoints(cfg, a.timers, order.timers, now)
    {
      TimerPointsMembers(cfg, a.timers, order.timers, now, p);
    }
  }

  /** Every bucket of every map is reported: a counter with its rate and
      count, a gauge with its value, a timer with the statistics of its
      samples. */
  lemma SnapshotReportsEvery(a: Aggregates, cfg: Config, unix: int, order: KeyOrder)
    requires ValidConfig(cfg) && OrderOf(order, a)
    ensures var ps, now := Snapshot(a, cfg, unix, order), WrapInt32(unix);
            && (forall k :: k in a.counters ==>
                  DataPoint(cfg.statsPrefix + k, RealValue(CounterRate(a.counters[k], cfg.flushInterval)), now) in ps
                  && DataPoint(cfg.countersPrefix + k, IntValue(a.counters[k]), now) in ps)
            && (forall k :: k in a.gauges ==> DataPoint(cfg.gaugesPrefix + k, IntValue(a.gauges[k]), now) in ps)
            && (forall k :: k in a.timers ==> forall p :: p in TimerLines(cfg, k, StatsOf(a.timers[k]), now) ==> p in ps)
  {
    forall k | k in a.counters {
      CounterReported(a, cfg, unix, order, k);
    }
    forall k | k in a.gauges {
      GaugeReported(a, cfg, unix, order, k);
    }
    forall k | k in a.timers {
      TimerReported(a, cfg, unix, order, k);
    }
  }

  /** The points reported do not depend on the iteration order, only their
      sequence does. */
  lemma SnapshotOrderIrrelevant(a: Aggregates, cfg: Config, unix: int, o1: KeyOrder, o2: KeyOrder, p: DataPoint)
    requires ValidConfig(cfg) && OrderOf(o1, a) && OrderOf(o2, a)
    ensures p in Snapshot(a, cfg, unix, o1) <==> p in Snapshot(a, cfg, unix, o2)
  {
    var now := WrapInt32(unix);
    SnapshotMembers(a, cfg, unix, o1, p);
    SnapshotMembers(a, cfg, unix, o2, p);
    CounterOrderIrrelevant(cfg, a.counters, o1.counters, o2.counters, now, p);
    GaugeOrderIrrelevant(cfg, a.gauges, o1.gauges, o2.gauges, now, p);
    TimerOrderIrrelevant(cfg, a.timers, o1.timers, o2.timers, now, p);
  }

  /** A point is reported when one of the three sections holds it, or it
      is the numStats point counting every bucket. */
  lemma SnapshotMembers(a: Aggregates, cfg: Config, unix: int, order: KeyOrder, p: DataPoint)
    requires ValidConfig(cfg) && OrderOf(order, a)
    ensures var now := WrapInt32(unix);
            p in Snapshot(a, cfg, unix, order) <==>
              || p in CounterPoints(cfg, a.counters, order.counters, now)
              || p in GaugePoints(cfg, a.gauges, order.gauges, now)
              || p in TimerPoints(cfg, a.timers, order.timers, now)
              || p == NumStatsPoint(cfg, |a.counters| + |a.gauges| + |a.timers|, now)
  {
    OrderSizes(a, order);
  }

  /** An iteration order lists as many buckets as each map has. */
  lemma OrderSizes(a: Aggregates, order: KeyOrder)
    requires OrderOf(order, a)
    ensures |order.counters| == |a.counters| && |order.gauges| == |a.gauges| && |order.timers| == |a.timers|
  {
    EnumeratesCard(order.counters, a.counters.Keys);
    EnumeratesCard(order.gauges, a.gauges.Keys);
    EnumeratesCard(order.timers, a.timers.Keys);
  }

  lemma CounterOrderIrrelevant(cfg: Config, m: map<string, int>, k1: seq<string>, k2: seq<string>, now: int, p: DataPoint)
    requires ValidConfig(cfg) && Enumerates(k1, m.Keys) && Enumerates(k2, m.Keys)
    ensures p in CounterPoints(cfg, m, k1, now) <==> p in CounterPoints(cfg, m, k2, now)
  {
    CounterPointsMembers(cfg, m, k1, now, p);
    CounterPointsMembers(cfg, m, k2, now, p);
  }

  lemma GaugeOrderIrrelevant(cfg: Config, m: map<string, int>, k1: seq<string>, k2: seq<string>, now: int, p: DataPoint)
    requires Enumerates(k1, m.Keys) && Enumerates(k2, m.Keys)
    ensures p in GaugePoints(cfg, m, k1, now) <==> p in GaugePoints(cfg, m, k2, now)
  {
    GaugePointsMembers(cfg, m, k1, now, p);
    GaugePointsMembers(cfg, m, k2, now, p);
  }

  lemma TimerOrderIrrelevant(cfg: Config, m: map<string, seq<real>>, k1: seq<string>, k2: seq<string>, now: int, p: DataPoint)
    requires ValidConfig(cfg) && Enumerates(k1, m.Keys) && Enumerates(k2, m.Keys)
    ensures p in TimerPoints(cfg, m, k1, now) <==> p in TimerPoints(cfg, m, k2, now)
  {
    TimerPointsMembers(cfg, m, k1, now, p);
    TimerPointsMembers(cfg, m, k2, now, p);
  }

  /** A flush keeps every bucket, so the same iteration order serves the
      next flush, and flushing twice resets no further. */
  lemma ResetKeepsBuckets(a: Aggregates, order: KeyOrder)
    ensures OrderOf(order, a) <==> OrderOf(order, Reset(a))
    ensures Reset(Reset(a)) == Reset(a)
    ensures Valid(a) ==> Valid(Reset(a))
  {
  }

  /** A flush with no traffic since the last one reports every counter as
      0 with rate 0 and every timer as all zeros; gauges repeat their
      value. */
  lemma IdleFlush(a: Aggregates, cfg: Config, unix: int, order: KeyOrder)
    requires ValidConfig(cfg) && OrderOf(order, a)
    ensures OrderOf(order, Reset(a))
    ensures var ps, now := Snapshot(Reset(a), cfg, unix, order), WrapInt32(unix);
            && (forall k :: k in a.counters ==>
                  DataPoint(cfg.statsPrefix + k, RealValue(0.0), now) in ps
                  && DataPoint(cfg.countersPrefix + k, IntValue(0), now) in ps)
            && (forall k :: k in a.gauges ==> DataPoint(cfg.gaugesPrefix + k, IntValue(a.gauges[k]), now) in ps)
            && (forall k :: k in a.timers ==>
                  forall p :: p in TimerLines(cfg, k, TimerStats(0.0, 0.0, 0.0, 0.0, 0), now) ==> p in ps)
  {
    var b, now := Reset(a), WrapInt32(unix);
    forall k | k in a.counters
      ensures DataPoint(cfg.statsPrefix + k, RealValue(0.0), now) in Snapshot(b, cfg, unix, order)
      ensures DataPoint(cfg.countersPrefix + k, IntValue(0), now) in Snapshot(b, cfg, unix, order)
    {
      CounterReported(b, cfg, unix, order, k);
      assert CounterRate(b.counters[k], cfg.flushInterval) == 0.0;
    }
    forall k | k in a.gauges
      ensures DataPoint(cfg.gaugesPrefix + k, IntValue(a.gauges[k]), now) in Snapshot(b, cfg, unix, order)
    {
      GaugeReported(b, cfg, unix, order, k);
    }
    forall k | k in a.timers
      ensures forall p :: p in TimerLines(cfg, k, TimerStats(0.0, 0.0, 0.0, 0.0, 0), now) ==> p in Snapshot(b, cfg, unix, order)
    {
      TimerReported(b, cfg, unix, order, k);
      assert StatsOf(b.timers[k]) == TimerStats(0.0, 0.0, 0.0, 0.0, 0);
    }
  }
}

=== FILE: store.dfy ===
/** The daemon's state: the counters, gauges and timers maps that monitor
    updates packet by packet and that submit reports and resets at every
    tick of the flush timer. */
module Store {
  import opened Numbers
  import opened Decoder
  import opened Aggregates
  import opened Timers
  import opened Reduction

  class AggregateStore {
    var counters: map<string, int>
    var gauges: map<string, int>
    var timers: map<string, seq<real>>

    /** The three maps as a value. */
    function State(): Aggregates
      reads this
    {
      Aggregates(counters, gauges, timers)
    }

    /** The maps start empty. */
    constructor ()
      ensures State() == Aggregates(map[], map[], map[])
    {
      counters, gauges, timers := map[], map[], map[];
    }

    /** monitor receiving one packet: a timer sample, a gauge or a
        counter. */
    method Apply(p: Packet)
      requires Applicable(p)
      modifies this
      ensures State() == Step(old(State()), p)
    {
      if p.modifier == "ms" {
        ApplyTimer(p);
      } else if p.modifier == "g" {
        ApplyGauge(p);
      } else {
        ApplyCounter(p);
      }
    }

    /** Creates the timer bucket if it is new and appends the parsed
        sample. */
    method ApplyTimer(p: Packet)
      requires p.modifier == "ms"
      modifies this
      ensures State() == Step(old(State()), p)
    {
      if p.bucket !in timers {
        timers := timers[p.bucket := []];
      }
      var floatValue := ParseFloatOrZero(p.value);
      timers := timers[p.bucket := timers[p.bucket] + [floatValue]];
    }

    /** Creates the gauge at 0 if it is new, then adds a '+' value,
        subtracts a '-' value or replaces the gauge with any other value. */
    method ApplyGauge(p: Packet)
      requires p.modifier == "g"
      modifies this
      ensures State() == Step(old(State()), p)
    {
      if p.bucket !in gauges {
        gauges := gauges[p.bucket := 0];
      }
      if |p.value| > 0 && p.value[0] == '+' {
        var intValue := Atoi(p.value[1..]);
        gauges := gauges[p.bucket := WrapInt64(gauges[p.bucket] + intValue)];
      } else if |p.value| > 0 && p.value[0] == '-' {
        var intValue := Atoi(p.value[1..]);
        gauges := gauges[p.bucket := WrapInt64(gauges[p.bucket] - intValue)];
      } else {
        var intValue := Atoi(p.value);
        gauges := gauges[p.bucket := intValue];
      }
    }

    /** Creates the counter at 0 if it is new and adds the value scaled up by
        the sampling rate. */
    method ApplyCounter(p: Packet)
      requires p.modifier != "ms" && p.modifier != "g" && p.sampling > 0.0
      modifies this
      ensures State() == Step(old(State()), p)
    {
      ghost var before := counters;
      if p.bucket !in counters {
        counters := counters[p.bucket := 0];
      }
      assert counters[p.bucket] == IntOf(before, p.bucket);
      var floatValue := ParseFloatOrZero(p.value);
      var delta := CounterDelta(floatValue, p.sampling);
      counters := counters[p.bucket := WrapInt64(counters[p.bucket] + delta)];
    }

    /** monitor draining the packet channel between two ticks. */
    method Receive(ps: seq<Packet>)
      requires forall i :: 0 <= i < |ps| ==> Applicable(ps[i])
      modifies this
      ensures State() == ApplyAll(old(State()), ps)
    {
      for i := 0 to |ps|
        invariant State() == ApplyAll(old(State()), ps[..i])
      {
        assert ps[..i + 1][..i] == ps[..i];
        Apply(ps[i]);
      }
      assert ps[..|ps|] == ps;
    }

    /** submit: report every counter, every gauge and every timer, then
        the number of buckets reported, all stamped with the flush time cut
        to 32 bits; buckets are visited in the given order. */
    method Flush(cfg: Config, unix: int, order: KeyOrder) returns (points: seq<DataPoint>)
      requires ValidConfig(cfg) && OrderOf(order, State())
      modifies this
      ensures points == Snapshot(old(State()), cfg, unix, order)
      ensures State() == Reset(old(State()))
    {
      var now := WrapInt32(unix);
      var counterPoints, counted := FlushCounters(cfg, order.counters, now);
      var gaugePoints, gauged := FlushGauges(cfg, order.gauges, now);
      var timerPoints, timed := FlushTimers(cfg, order.timers, now);
      var numStats := counted + gauged + timed;
      points := counterPoints + gaugePoints + timerPoints + [NumStatsPoint(cfg, numStats, now)];
    }

    /** The counters loop of submit: each counter's rate and count, then the
        counter back to 0. */
    method FlushCounters(cfg: Config, keys: seq<string>, now: int) returns (points: seq<DataPoint>, numStats: nat)
      requires ValidConfig(cfg) && Enumerates(keys, counters.Keys)
      modifies this
      ensures points == CounterPoints(cfg, old(counters), keys, now) && numStats == |keys|
      ensures counters == map k | k in old(counters) :: 0
      ensures gauges == old(gauges) && timers == old(timers)
    {
      ghost var before := counters;
      points, numStats := [], 0;
      var i := 0;
      while i < |keys|
        invariant 0 <= i <= |keys| && numStats == i
        invariant gauges == old(gauges) && timers == old(timers)
        invariant counters == CountersCleared(before, keys[..i])
        invariant points == CounterPoints(cfg, before, keys[..i], now)
      {
        var s := keys[i];
        VisitNext(keys, i);
        var c := counters[s];
        var value := CounterRate(c, cfg.flushInterval);
        CounterPointsNext(cfg, before, keys, now, i);
        points := points + [DataPoint(cfg.statsPrefix + s, RealValue(value), now),
                            DataPoint(cfg.countersPrefix + s, IntValue(c), now)];
        CountersClearedNext(before, keys, i);
        counters := counters[s := 0];
        numStats := numStats + 1;
        i := i + 1;
      }
      assert keys[..i] == keys;
      CountersClearedAll(before, keys);
    }

    /** The gauges loop of submit: each gauge's current value. */
    method FlushGauges(cfg: Config, keys: seq<string>, now: int) returns (points: seq<DataPoint>, numStats: nat)
      requires Enumerates(keys, gauges.Keys)
      ensures points == GaugePoints(cfg, gauges, keys, now) && numStats == |keys|
    {
      points, numStats := [], 0;
      var i := 0;
      while i < |keys|
        invariant 0 <= i <= |keys| && numStats == i
        invariant points == GaugePoints(cfg, gauges, keys[..i], now)
      {
        var g := keys[i];
        VisitNext(keys, i);
        points := points + [DataPoint(cfg.gaugesPrefix + g, IntValue(gauges[g]), now)];
        numStats := numStats + 1;
        i := i + 1;
      }
      assert keys[..i] == keys;
    }

    /** The timers loop of submit: each timer's statistics, or zeros when it
        has no samples, and the samples dropped. */
    method FlushTimers(cfg: Config, keys: seq<string>, now: int) returns (points: seq<DataPoint>, numStats: nat)
      requires ValidConfig(cfg) && Enumerates(keys, timers.Keys)
      modifies this
      ensures points == TimerPoints(cfg, old(timers), keys, now) && numStats == |keys|
      ensures timers == map k | k in old(timers) :: []
      ensures counters == old(counters) && gauges == old(gauges)
    {
      ghost var before := timers;
      points, numStats := [], 0;
      var i := 0;
      while i < |keys|
        invariant 0 <= i <= |keys| && numStats == i
        invariant counters == old(counters) && gauges == old(gauges)
        invariant timers == TimersCleared(before, keys[..i])
        invariant points == TimerPoints(cfg, before, keys[..i], now)
      {
        var u := keys[i];
        var lines := FlushTimer(cfg, u, now);
        TimerPointsNext(cfg, before, keys, now, i);
        TimersClearedNext(before, keys, i);
        points := points + lines;
        numStats := numStats + 1;
        i := i + 1;
      }
      assert keys[..i] == keys;
      TimersClearedAll(before, keys);
    }

    /** One timer of the timers loop: its statistics, or zeros when it has
        no samples; a timer with samples is emptied. */
    method FlushTimer(cfg: Config, u: string, now: int) returns (lines: seq<DataPoint>)
      requires ValidConfig(cfg) && u in timers
      modifies this
      ensures lines == TimerLines(cfg, u, StatsOf(old(timers)[u]), now)
      ensures timers == old(timers)[u := []]
      ensures counters == old(counters) && gauges == old(gauges)
    {
      var t := timers[u];
      var st;
      if |t| > 0 {
        st := Summarize(t, cfg.percentThreshold);
        timers := timers[u := []];
      } else {
        st := TimerStats(0.0, 0.0, 0.0, 0.0, 0);
        assert timers == timers[u := []];
      }
      lines := TimerLines(cfg, u, st, now);
    }
  }
}

=== FILE: timers.dfy ===
/** The statistics submit reports for one timer bucket: its samples are
    sorted in place, then the lowest, the highest, the count and a
    "threshold mean" are read off. */
module Timers {
  import opened Numbers

  /** The five fields reported for a timer: .mean, .upper, .upper_P, .lower
      and .count. */
  datatype TimerStats = TimerStats(mean: real, upper: real, upperAtThreshold: real, lower: real, count: nat)

  predicate Sorted(t: seq<real>)
  {
    forall i, j :: 0 <= i < j < |t| ==> t[i] <= t[j]
  }

  function Sum(t: seq<real>): real
  {
    if t == [] then 0.0 else t[0] + Sum(t[1..])
  }

  /** The least sample. */
  function Min(t: seq<real>): real
    requires |t| > 0
  {
    if |t| == 1 then t[0]
    else if t[0] <= Min(t[1..]) then t[0] else Min(t[1..])
  }

  /** The greatest sample. */
  function Max(t: seq<real>): real
    requires |t| > 0
  {
    if |t| == 1 then t[0]
    else if t[0] >= Max(t[1..]) then t[0] else Max(t[1..])
  }

  /** Min is a sample, and no sample is less. */
  lemma {:induction false} MinIsLeast(t: seq<real>)
    requires |t| > 0
    ensures Min(t) in t && forall i :: 0 <= i < |t| ==> Min(t) <= t[i]
  {
    if |t| > 1 {
      MinIsLeast(t[1..]);
      assert Min(t[1..]) in t by { assert t == [t[0]] + t[1..]; }
      forall i | 1 <= i < |t| ensures Min(t) <= t[i] {
        assert t[i] == t[1..][i - 1];
      }
    }
  }

  /** Max is a sample, and no sample is greater. */
  lemma {:induction false} MaxIsGreatest(t: seq<real>)
    requires |t| > 0
    ensures Max(t) in t && forall i :: 0 <= i < |t| ==> t[i] <= Max(t)
  {
    if |t| > 1 {
      MaxIsGreatest(t[1..]);
      assert Max(t[1..]) in t by { assert t == [t[0]] + t[1..]; }
      forall i | 1 <= i < |t| ensures t[i] <= Max(t) {
        assert t[i] == t[1..][i - 1];
      }
    }
  }

  // ---------------------------------------------------------------------
  // Sums

  lemma {:induction false} SumAppend(a: seq<real>, b: seq<real>)
    ensures Sum(a + b) == Sum(a) + Sum(b)
  {
    if a == [] {
      assert a + b == b;
    } else {
      assert (a + b)[1..] == a[1..] + b;
      SumAppend(a[1..], b);
    }
  }

  /** The running sum of a loop over a prefix. */
  lemma SumPrefix(t: seq<real>, i: nat)
    requires i < |t|
    ensures Sum(t[..i + 1]) == Sum(t[..i]) + t[i]
  {
    assert t[..i + 1] == t[..i] + [t[i]];
    SumAppend(t[..i], [t[i]]);
  }

  /** The order of the samples does not change their sum. */
  lemma {:induction false} SumPermutation(t: seq<real>, u: seq<real>)
    requires multiset(t) == multiset(u)
    ensures Sum(t) == Sum(u)
    decreases |t|
  {
    if t == [] {
      assert |u| == |multiset(u)| == 0;
    } else {
      var x := t[0];
      assert x in multiset(u);
      var j :| 0 <= j < |u| && u[j] == x;
      var u' := u[..j] + u[j + 1..];
      assert u == u[..j] + [x] + u[j + 1..];
      assert t == [x] + t[1..];
      assert multiset(u) == multiset(u[..j]) + multiset{x} + multiset(u[j + 1..]);
      assert multiset(t) == multiset{x} + multiset(t[1..]);
      assert multiset(u') == multiset(u[..j]) + multiset(u[j + 1..]);
      assert multiset(t[1..]) == multiset(t) - multiset{x};
      assert multiset(u') == multiset(u) - multiset{x};
      SumPermutation(t[1..], u');
      SumAppend(u[..j] + [x], u[j + 1..]);
      SumAppend(u[..j], [x]);
      SumAppend(u[..j], u[j + 1..]);
    }
  }

  /** Samples between lo and hi sum to between n*lo and n*hi. */
  lemma {:induction false} SumBounds(t: seq<real>, lo: real, hi: real)
    requires forall i :: 0 <= i < |t| ==> lo <= t[i] <= hi
    ensures |t| as real * lo <= Sum(t) <= |t| as real * hi
  {
    if t != [] {
      SumBounds(t[1..], lo, hi);
    }
  }

  // ---------------------------------------------------------------------
  // Sorting in place

  /** sort.Float64s: sorts the samples in place, ascending. */
  method SortInPlace(a: array<real>)
    modifies a
    ensures Sorted(a[..])
    ensures multiset(a[..]) == multiset(old(a[..]))
  {
    if a.Length == 0 {
      return;
    }
    var i := 1;
    while i < a.Length
      invariant 1 <= i <= a.Length
      invariant Sorted(a[..i])
      invariant multiset(a[..]) == multiset(old(a[..]))
    {
      InsertAt(a, i);
      i := i + 1;
    }
  }

  /** Moves a[i] down into the sorted prefix a[..i]. */
  method InsertAt(a: array<real>, i: nat)
    requires i < a.Length && Sorted(a[..i])
    modifies a
    ensures Sorted(a[..i + 1])
    ensures a[i + 1..] == old(a[i + 1..])
    ensures multiset(a[..]) == multiset(old(a[..]))
  {
    var j: nat := i;
    while j > 0 && a[j - 1] > a[j]
      invariant j <= i
      invariant Sinking(a[..], j, i)
      invariant a[i + 1..] == old(a[i + 1..])
      invariant multiset(a[..]) == multiset(old(a[..]))
    {
      ghost var s := a[..];
      SwapDown(s, j, i);
      a[j - 1], a[j] := a[j], a[j - 1];
      assert a[..] == s[j - 1 := s[j]][j := s[j - 1]];
      j := j - 1;
    }
    SinkingDone(a[..], j, i);
  }

  /** Insertion in progress: the element being inserted sits at j, every
      other pair in s[..i + 1] is in order, and everything after j is
      greater than it. */
  ghost predicate Sinking(s: seq<real>, j: nat, i: nat)
  {
    && j <= i < |s|
    && (forall p, q :: 0 <= p < q <= i && q != j ==> s[p] <= s[q])
    && (forall q :: j < q <= i ==> s[j] < s[q])
  }

  /** Swapping the inserted element with a greater left neighbour moves
      the insertion one place down and keeps the samples. */
  lemma SwapDown(s: seq<real>, j: nat, i: nat)
    requires Sinking(s, j, i) && 0 < j && s[j - 1] > s[j]
    ensures Sinking(s[j - 1 := s[j]][j := s[j - 1]], j - 1, i)
    ensures multiset(s[j - 1 := s[j]][j := s[j - 1]]) == multiset(s)
    ensures s[j - 1 := s[j]][j := s[j - 1]][i + 1..] == s[i + 1..]
  {
    var t := s[j - 1 := s[j]][j := s[j - 1]];
    assert t[j - 1] == s[j] && t[j] == s[j - 1];
    assert forall k :: 0 <= k < |s| && k != j - 1 && k != j ==> t[k] == s[k];
    forall p, q | 0 <= p < q <= i && q != j - 1
      ensures t[p] <= t[q]
    {
      if q == j {
        assert p < j - 1 || p == j - 1;
      }
    }
    assert t[i + 1..] == s[i + 1..];
  }

  /** Once the left neighbour is no greater, the prefix is sorted. */
  lemma SinkingDone(s: seq<real>, j: nat, i: nat)
    requires Sinking(s, j, i) && (j == 0 || s[j - 1] <= s[j])
    ensures Sorted(s[..i + 1])
  {
  }

  // ---------------------------------------------------------------------
  // The statistics

  /** The trim index of submit: ((100 - P) / 100) * count in Go's
      truncating integer division. */
  function ThresholdIndex(percent: int, count: nat): int
  {
    GoDiv(100 - percent, 100) * count
  }

  /** The trim index is 0 for every threshold strictly between 0 and 200,
      so the "threshold mean" is taken over all samples. */
  lemma ThresholdIndexZero(percent: int, count: nat)
    requires 0 < percent < 200
    ensures ThresholdIndex(percent, count) == 0
  {
    assert -100 < 100 - percent < 100;
    assert GoDiv(100 - percent, 100) == 0;
  }

  /** What submit reports for one timer, stated without sorting: the mean
      of all samples, the greatest sample twice (as .upper and .upper_P),
      the least, and the count; all zero when there are no samples. */
  function StatsOf(t: seq<real>): (st: TimerStats)
  {
    if |t| == 0 then TimerStats(0.0, 0.0, 0.0, 0.0, 0)
    else TimerStats(RunningMean(t, 0.0, 0), Max(t), Max(t), Min(t), |t|)
  }

  /** The mean as a summing loop finds it: a running sum and count over the
      samples, one division at the end. */
  function RunningMean(t: seq<real>, sum: real, count: nat): real
  {
    if t == [] then (if count == 0 then 0.0 else sum / count as real)
    else RunningMean(t[1..], sum + t[0], count + 1)
  }

  /** The running mean is the sum over the count, the samples included. */
  lemma {:induction false} RunningMeanIsAverage(t: seq<real>, sum: real, count: nat)
    requires count + |t| > 0
    ensures RunningMean(t, sum, count) == (sum + Sum(t)) / (count + |t|) as real
  {
    if t != [] {
      RunningMeanIsAverage(t[1..], sum + t[0], count + 1);
      assert sum + t[0] + Sum(t[1..]) == sum + Sum(t);
      assert count + 1 + |t[1..]| == count + |t|;
    }
  }

  /** The reported fields bracket the samples: lower is a sample no greater
      than any, upper a sample no less than any, and the mean lies between
      them. */
  lemma StatsBounds(t: seq<real>)
    requires |t| > 0
    ensures var st := StatsOf(t);
            && st.lower in t && st.upper in t && st.count == |t|
            && (forall i :: 0 <= i < |t| ==> st.lower <= t[i] <= st.upper)
            && st.lower <= st.mean <= st.upper
            && st.upperAtThreshold == st.upper
  {
    var lo, hi := Min(t), Max(t);
    MinIsLeast(t);
    MaxIsGreatest(t);
    RunningMeanIsAverage(t, 0.0, 0);
    MeanWithin(t, lo, hi);
  }

  /** Samples between lo and hi have their mean between lo and hi. */
  lemma MeanWithin(t: seq<real>, lo: real, hi: real)
    requires |t| > 0 && forall i :: 0 <= i < |t| ==> lo <= t[i] <= hi
    ensures lo <= Sum(t) / |t| as real <= hi
  {
    SumBounds(t, lo, hi);
    MeanBetween(Sum(t), |t| as real, lo, hi);
  }

  lemma MeanBetween(s: real, n: real, lo: real, hi: real)
    requires n > 0.0 && n * lo <= s <= n * hi
    ensures lo <= s / n <= hi
  {
  }

  /** A sorted list's ends are its least and greatest samples. */
  lemma SortedEnds(s: seq<real>, t: seq<real>)
    requires Sorted(s) && multiset(s) == multiset(t) && |t| > 0
    ensures |s| == |t| && s[0] == Min(t) && s[|s| - 1] == Max(t)
  {
    assert |s| == |multiset(s)| == |multiset(t)| == |t|;
    var lo, hi := Min(t), Max(t);
    MinIsLeast(t);
    MaxIsGreatest(t);
    assert lo in multiset(s) && hi in multiset(s);
    assert s[0] in multiset(t) && s[|s| - 1] in multiset(t);
    var i :| 0 <= i < |s| && s[i] == lo;
    var j :| 0 <= j < |s| && s[j] == hi;
    var p :| 0 <= p < |t| && t[p] == s[0];
    var q :| 0 <= q < |t| && t[q] == s[|s| - 1];
    assert s[0] <= s[i] && s[j] <= s[|s| - 1];
  }

  /** The summing loop of submit over the first n sorted samples. */
  method SumFirst(a: array<real>, n: nat) returns (sum: real)
    requires n <= a.Length
    ensures sum == Sum(a[..n])
  {
    sum := 0.0;
    var i := 0;
    while i < n
      invariant 0 <= i <= n
      invariant sum == Sum(a[..i])
    {
      SumPrefix(a[..], i);
      assert a[..i + 1] == a[..][..i + 1] && a[..i] == a[..][..i];
      sum := sum + a[i];
      i := i + 1;
    }
  }

  /** The flush computation for a timer bucket with samples, as submit does
      it: sort in place, read off the ends, and for more than one sample
      average the samples below the trim index. */
  method Summarize(t: seq<real>, percent: int) returns (st: TimerStats)
    requires |t| > 0 && 0 < percent < 200
    ensures st == StatsOf(t)
  {
    var a := new real[|t|](k requires 0 <= k < |t| => t[k]);
    assert a[..] == t;
    SortInPlace(a);
    ghost var s := a[..];
    var count := a.Length;
    var min, max := a[0], a[count - 1];
    assert count == |t| && min == Min(t) && max == Max(t) by {
      SortedEnds(s, t);
    }
    var mean, maxAtThreshold := min, max;
    if count > 1 {
      var thresholdIndex := ThresholdIndex(percent, count);
      assert thresholdIndex == 0 by {
        ThresholdIndexZero(percent, count);
      }
      var numInThreshold := count - thresholdIndex;
      var sum := SumFirst(a, numInThreshold);
      assert sum == Sum(t) by {
        assert a[..numInThreshold] == s;
        SumPermutation(s, t);
      }
      mean := sum / numInThreshold as real;
      assert mean == RunningMean(t, 0.0, 0) by {
        RunningMeanIsAverage(t, 0.0, 0);
      }
    } else {
      assert mean == RunningMean(t, 0.0, 0) by {
        assert t == [t[0]] && s[0] == t[0];
        assert t[1..] == [];
      }
    }
    st := TimerStats(mean, max, maxAtThreshold, min, count);
  }
}
